=== FILE: README.md ===
# Library catalogue: records, registries and referential integrity

A Dafny model of the core of a small library-management system written in
Python. The model covers:

- the three records: `Book`, `User` and `Checkout`;
- the persistence gateway `Storage`;
- three registries:
  - `BookManager`, which keeps books with unique ISBNs;
  - `UserManager`, which issues sequential numeric ids;
  - `CheckoutManager`, which drives each book's Available → CheckedOut → Available cycle and keeps checkouts pointing at registered users and books;
- the two input validators of the command-line front end, and how its book-update prompt forwards an empty answer.

Everything is functional:

- Records are immutable datatypes.
- A registry is a value: a sequence plus its store.
- Every operation is a pure function returning a `Result` whose failure carries one of the error variants. Those variants are the source's `ValueError` messages and its load-time exceptions.
- A failing operation returns no new state, so the caller's state is unchanged by construction.

Modules, one per source unit:

| module | file | models |
|---|---|---|
| `Common` | common.dfy | `Option`, `Result`, `Error`, JSON values and records, and the list idioms the source uses (`next(...)`, filtered comprehensions, `list.remove`) |
| `Strings` | strings.dfy | ASCII case folding, substring search (`in`), `strip()` over Python's whitespace set, and decimal numerals (`str(n)` and `int(s)`) |
| `Books`, `Users`, `Checkouts` | books.dfy, users.dfy, checkouts.dfy | library/book.py, library/user.py, library/checkout.py |
| `Persistence` | storage.dfy | library/storage.py |
| `BookManagement`, `UserManagement`, `CheckoutManagement` | book_manager.dfy, user_manager.dfy, checkout_manager.dfy | library/managers/*.py |
| `Cli` | cli.dfy | `validate_isbn`, `validate_name` and the update forwarding in main.py |

Representation choices:

- **User ids.** A user id is kept as a number. The source stores it as the string `str(n)`. `NatToString` and `ParseNat` translate between the two, and they are proved mutually inverse on canonical numerals.
- **Checkouts.** A checkout holds its user's id and its book's ISBN. In the source it holds the objects themselves.
  - A book's availability is therefore read from the book registry by ISBN.
  - The coordinator invariant `CheckoutManagement.Consistent` guarantees that this reading agrees with the source's shared objects.
- **Storage.** A store is in-memory or a file.
  - A file's text is either raw text found on disk, handed to a JSON parser given as a parameter, or the records this store wrote itself.
  - The write-through property therefore holds for every parser.
- **Dates.** Dates are instants in seconds, and a loan is `14 * 24 * 60 * 60` seconds long.

## Model

| member | source | states |
|---|---|---|
| Common.FirstIndex | library/managers/book_manager.py:72 | the index found satisfies the predicate and no earlier element does; none exactly when no element satisfies it |
| Common.Filter | library/managers/book_manager.py:135 | the result holds only elements of the input that satisfy the predicate, and every satisfying element is in it |
| Common.FilterAppend | library/managers/book_manager.py:135 | filtering a concatenation is the concatenation of the filtered parts, i.e. the comprehension keeps input order |
| Common.ParseAll | library/managers/book_manager.py:31-32 | converting a list succeeds with one converted element per record, position by position, and fails exactly when some record fails to convert |
| Common.CollectAppend | library/managers/checkout_manager.py:114 | collecting over a concatenation concatenates the collected parts, i.e. the comprehension keeps input order |
| Common.Map | library/managers/book_manager.py:36 | the comprehension `[f(x) for x in s]`: one result per element, in the same order |
| Common.RemoveAt | library/managers/book_manager.py:121 | removing one located element keeps all others, in order, shifted down by one |
| Strings.Lower | library/managers/book_manager.py:134-135 | lower-casing keeps the length and maps each character through ASCII lower-casing |
| Strings.LowerIdempotent | library/managers/book_manager.py:134 | lower-casing an already lower-cased string changes nothing |
| Strings.ContainsIffOccurs | library/managers/book_manager.py:135 | the substring test `keyword in text` holds exactly when the keyword sits at some offset of the text |
| Strings.EmptyIsContained | library/managers/user_manager.py:135 | an empty query is contained in every name, so it matches every user |
| Strings.TrimStart | library/storage.py:51 | removes exactly the leading whitespace, Python's full `isspace` set including U+00A0 and U+2028: the rest is a suffix that does not start with whitespace |
| Strings.TrimEnd | library/storage.py:51 | removes exactly the trailing whitespace, Python's full `isspace` set: the rest is a prefix that does not end with whitespace |
| Strings.StripEmptyIffBlank | library/storage.py:51-53 | the stripped file content is empty exactly when every character is whitespace in Python's sense |
| Strings.NatToString | library/managers/user_manager.py:59 | `str(n)` is a non-empty run of digits that starts with '0' only for zero |
| Strings.ParseNatToString | library/managers/user_manager.py:38 | `int(str(n)) == n` |
| Strings.NatToStringOfParse | library/managers/user_manager.py:38 | `str(int(s)) == s` for every canonical numeral `s` |
| Strings.NatToStringInjective | library/managers/user_manager.py:76 | two ids have the same string exactly when they are the same number |
| Books.NewBook | library/book.py:82-92 | a new book stores its title, author and ISBN unchanged and is available |
| Books.SetAvailable | library/book.py:39-42 | the setter sets availability and leaves title, author and ISBN unchanged |
| Books.Label | library/book.py:106 | the string is title, " by ", author, then " (ISBN: <isbn>)", with the matching length |
| Books.LabelDeterminesIsbn | library/book.py:106 | two books whose ISBNs contain no space, as every ISBN the command line accepts, print alike only with the same ISBN and the same "<title> by <author>" |
| Books.ToDict | library/book.py:115-120 | exactly the keys title, author, isbn and available, and reading them back gives the same book |
| Books.FromDict | library/book.py:133-135 | fails exactly on a record without the four typed fields; otherwise every field comes from the record, availability included |
| Users.IdString | library/managers/user_manager.py:59 | the stored id string parses back to the user's number |
| Users.Label | library/user.py:26 | the string is name, " (ID: ", the id string, then ")", with the matching length |
| Users.LabelInjective | library/user.py:26 | two users print alike exactly when they are the same user: name and id can be read back from the printed form |
| Users.ToDict | library/user.py:35-38 | exactly the keys name and user_id, and reading them back gives the same user |
| Users.FromDict | library/user.py:51 | name and id string are copied from the record unchanged; fails exactly on a malformed record |
| Persistence.Open | library/storage.py:20-21 | the memory path gives an in-memory store that loads as empty; any other path gives a file store that keeps the file's text to read on load, and loads as empty when no file exists |
| Persistence.Save | library/storage.py:30-34 | the store keeps its mode and any later load returns exactly the saved list |
| Persistence.Load | library/storage.py:43-54 | memory returns what was saved; a missing or whitespace-only file loads empty; what the store wrote reads back; other text goes to the JSON parser, whose rejection is the only failure |
| Persistence.SaveOverwrites | library/storage.py:30-34 | a second save replaces the first entirely |
| BookManagement.LoadBooks | library/managers/book_manager.py:31-32 | loading succeeds exactly when storage loads and every stored record is a well-formed book, giving one book per record, each converted from it |
| BookManagement.SaveBooks | library/managers/book_manager.py:36 | the books are unchanged and storage then holds their serialisation |
| BookManagement.ReloadAfterSave | library/managers/book_manager.py:31-36 | re-running `_load_books` on the store just saved returns the same book list |
| BookManagement.IndexOfIsbn | library/managers/book_manager.py:72 | the index of the first book with the ISBN; none exactly when no book has it |
| BookManagement.GetBookByIsbn | library/managers/book_manager.py:72 | the first book with that ISBN, or none exactly when absent |
| BookManagement.LookupUnique | library/managers/book_manager.py:72 | with unique ISBNs, the lookup of a book's ISBN finds that very book |
| BookManagement.AddBook | library/managers/book_manager.py:53-60 | missing-field failure iff an argument is empty; duplicate failure iff all are given and the ISBN is present; success exactly when all are given and the ISBN is new, and then exactly one new available book is appended and written through |
| BookManagement.Chosen | library/managers/book_manager.py:101-104 | a non-empty argument replaces the field, and None or "" keeps it |
| BookManagement.UpdateBook | library/managers/book_manager.py:98-106 | not-found iff the ISBN is absent; otherwise only the first matching book changes, getting its non-empty new title and author, while ISBN, availability and all other books are unchanged; written through, uniqueness preserved |
| BookManagement.DeleteBook | library/managers/book_manager.py:118-122 | not-found iff the ISBN is absent; otherwise exactly the first matching book is removed, the rest keep their order, storage is written; with unique ISBNs the ISBN is then gone and every other book remains |
| BookManagement.SearchBooks | library/managers/book_manager.py:134-135 | a book is in the result iff it is registered and its lower-cased title or author contains the lower-cased keyword |
| BookManagement.SearchPreservesOrder | library/managers/book_manager.py:135 | search results follow registry order: searching a concatenation concatenates the results |
| BookManagement.SearchIgnoresKeywordCase | library/managers/book_manager.py:134 | the keyword's case does not affect the result |
| UserManagement.NextId | library/managers/user_manager.py:36-38 | 1 for no users; otherwise one more than some stored id and greater than every stored id, i.e. the maximum plus one |
| UserManagement.LoadUsers | library/managers/user_manager.py:13-27 | loading succeeds exactly when storage loads and every stored record is a well-formed user, giving one user per record and the counter seeded from them |
| UserManagement.SaveUsers | library/managers/user_manager.py:42 | users and counter unchanged, and storage holds their serialisation |
| UserManagement.IndexOfId | library/managers/user_manager.py:76 | the index of the first user with that id string; none exactly when no user has it |
| UserManagement.GetUserById | library/managers/user_manager.py:76 | the first user with that id string, or none exactly when absent |
| UserManagement.GetUserByNumber | library/managers/user_manager.py:76 | looking up `str(n)` finds a user exactly when one has number n, and that user has number n |
| UserManagement.AddUser | library/managers/user_manager.py:57-64 | fails iff the name is empty; otherwise the user `str(next_id)` is appended, the counter grows by one, storage is written, and ids stay unique, below the counter and increasing |
| UserManagement.UpdateUser | library/managers/user_manager.py:101-106 | not-found iff the id is absent; otherwise only the first matching user's name changes, even to "", its id and the counter are kept, storage is written |
| UserManagement.DeleteUser | library/managers/user_manager.py:118-122 | not-found iff the id is absent; otherwise exactly the first user with that id is removed with the others in order and the counter is untouched; when ids are unique, the id is then gone |
| UserManagement.SearchUsers | library/managers/user_manager.py:134-135 | a user is in the result iff registered and its lower-cased name contains the lower-cased query |
| UserManagement.SearchUsersPreservesOrder | library/managers/user_manager.py:135 | search results follow registry order |
| UserManagement.IdsIncreaseAcrossDelete | library/managers/user_manager.py:59-62 | an add, a delete of any user, then another add hands out a strictly larger id |
| UserManagement.ReloadAfterSave | library/managers/user_manager.py:13-42 | re-running `_load_users` on the store just saved returns the same users, with the counter recomputed from them |
| UserManagement.DeleteUndoesAdd | library/managers/user_manager.py:118-122 | deleting the user just added restores the previous list but not the previous counter |
| UserManagement.ReloadReusesDeletedId | library/managers/user_manager.py:36-38 | the counter is not persisted: after the newest user is added and deleted, re-running `_load_users` on the same store seeds the counter with that user's id again (a later session over the same file reuses it; a fresh in-memory store starts empty) |
| Checkouts.NewCheckout | library/checkout.py:11-22 | a new checkout references its user and book, starts now, and is due exactly 14 days later |
| Checkouts.ToDict | library/checkout.py:42-47 | exactly the four keys; each reference is null exactly when it is missing, otherwise the user's id string or the book's ISBN; both dates stored |
| Checkouts.ResolveUser | library/checkout.py:62 | a stored user id resolves iff it is a non-empty string that some user has, and it resolves to that number |
| Checkouts.ResolveBook | library/checkout.py:63 | a stored ISBN resolves iff it is a non-empty string that some book has |
| Checkouts.FromDict | library/checkout.py:62-67 | references resolved against the registries, and the stored dates replace the constructor's; fails exactly on a malformed record |
| Checkouts.RoundTrip | library/checkout.py:42-67 | a checkout whose references resolve reads back identical, dates included |
| Checkouts.DanglingUserDropped | library/checkout.py:62 | a reference to an unregistered user reads back as missing |
| CheckoutManagement.CheckoutRecords | library/managers/checkout_manager.py:49-50 | only checkouts with both references are written, in order, none with a null reference |
| CheckoutManagement.SaveCheckouts | library/managers/checkout_manager.py:47-50 | state unchanged, and storage holds exactly the records of the complete checkouts |
| CheckoutManagement.ParseCheckouts | library/managers/checkout_manager.py:35-39 | one checkout per stored record, resolved against the registries; fails iff some record is malformed |
| CheckoutManagement.LoadCheckouts | library/managers/checkout_manager.py:35-45 | succeeds exactly when storage loads and every stored record is well formed; keeps the parsed checkouts that have both references, in stored order, and every one kept resolves |
| CheckoutManagement.OpenLibrary | library/managers/checkout_manager.py:15-26 | the coordinator starts from the registries given and holds exactly the checkouts `_load_checkouts` returns, all of which resolve |
| CheckoutManagement.ReloadAfterSave | library/managers/checkout_manager.py:28-50 | re-running `_load_checkouts` on the store just saved returns every complete, resolving checkout unchanged |
| CheckoutManagement.ReloadDropsDeletedUser | library/managers/checkout_manager.py:40-41 | after a user is deleted, re-running `_load_checkouts` on the last saved store succeeds and keeps no checkout naming that user |
| CheckoutManagement.CheckoutBook | library/managers/checkout_manager.py:66-83 | unknown-user failure iff the user is absent; then unknown-book iff the book is absent; then not-available iff the book is lent; success exactly when the user and book are registered and the book is available, and then the book becomes unavailable, one loan of 14 days is appended and both stores are written |
| CheckoutManagement.IndexOfReturnable | library/managers/checkout_manager.py:95 | the first checkout naming the ISBN whose registered book is unavailable; none iff there is none |
| CheckoutManagement.ReturnBook | library/managers/checkout_manager.py:95-105 | fails iff no checkout names the ISBN with its book unavailable; otherwise the book becomes available, only the first such checkout is removed with the others in order, and both stores are written |
| CheckoutManagement.CheckedOutBook | library/managers/checkout_manager.py:114 | a checkout contributes a book iff the first registered book with its ISBN is unavailable, and then it contributes exactly that book |
| CheckoutManagement.CheckedOutBooksMembers | library/managers/checkout_manager.py:114 | a book is listed iff some checkout keeps it out (names it while it is registered and unavailable), with at most one entry per checkout |
| CheckoutManagement.GetCheckedOutBooks | library/managers/checkout_manager.py:114 | at most one entry per checkout; a book is listed exactly when some checkout keeps it out, so only unavailable registered books appear, and a book no checkout names is not listed even when unavailable |
| CheckoutManagement.CheckedOutBooksAppend | library/managers/checkout_manager.py:114 | the comprehension over the checkouts splits along any split of the checkout list |
| CheckoutManagement.GetCheckedOutBooksAppend | library/managers/checkout_manager.py:114 | the checked-out list of a concatenation of checkouts is the two lists concatenated, so it follows checkout order |
| CheckoutManagement.CheckedOutBooksAreUnavailable | library/managers/checkout_manager.py:114 | under the coordinator invariant, a book is listed iff it is registered and unavailable |
| CheckoutManagement.SameIsbnsSameLookup | library/managers/checkout_manager.py:79 | flipping availability flags does not change any ISBN lookup or ISBN uniqueness |
| CheckoutManagement.LendKeepsRefs | library/managers/checkout_manager.py:80 | appending a checkout of a registered book no checkout names keeps every checkout registered and no book in two checkouts |
| CheckoutManagement.LendKeepsAvailability | library/managers/checkout_manager.py:79-80 | making the lent book unavailable while appending its checkout keeps "unavailable iff named by a checkout" |
| CheckoutManagement.LendKeepsStep | library/managers/checkout_manager.py:79-80 | lending an available book and appending its checkout keeps the whole coordinator invariant |
| CheckoutManagement.CheckoutPreservesConsistency | library/managers/checkout_manager.py:66-83 | a successful checkout preserves the coordinator invariant |
| CheckoutManagement.SettleKeepsRefs | library/managers/checkout_manager.py:103 | removing one checkout keeps every other checkout registered and no book in two checkouts |
| CheckoutManagement.SettleKeepsAvailability | library/managers/checkout_manager.py:102-103 | making the returned book available while removing its checkout keeps "unavailable iff named by a checkout" |
| CheckoutManagement.SettleKeepsStep | library/managers/checkout_manager.py:102-103 | making the book available and removing its checkout keeps the whole coordinator invariant |
| CheckoutManagement.ReturnPreservesConsistency | library/managers/checkout_manager.py:95-105 | a successful return preserves the coordinator invariant |
| CheckoutManagement.NewCheckoutIsReturnable | library/managers/checkout_manager.py:95 | when no earlier checkout names the ISBN, right after a loan that loan is the checkout a return of the ISBN settles |
| CheckoutManagement.AvailableNotReturnable | library/managers/checkout_manager.py:95-97 | no return of an ISBN whose book is available can succeed |
| CheckoutManagement.LendThenSettle | library/managers/checkout_manager.py:79-103 | when no earlier checkout names the ISBN, the new loan is the one a return settles, and settling it gives back the original book and checkout lists |
| CheckoutManagement.CheckoutThenReturn | library/managers/checkout_manager.py:78-103 | while the coordinator is consistent, checkout then return restores the book list and the checkout list, and a second return fails |
| CheckoutManagement.SecondCheckoutFails | library/managers/checkout_manager.py:75-76 | once lent, a book cannot be lent again: unknown user or not available |
| Cli.ValidateIsbn | main.py:164 | accepts exactly ten digits and an optional final newline; on newline-free input, exactly strings of length ten made only of digits |
| Cli.ValidateName | main.py:291 | accepts exactly non-empty strings of ASCII letters and Python whitespace characters, so never one with a digit |
| Cli.Forwarded | main.py:185 | an empty answer becomes None, any other answer is passed unchanged |
| Cli.ForwardingKeepsCurrent | main.py:185 | forwarding None and forwarding "" update a book identically; empty answers keep the book as it was |

## Left out

- Menus and terminal I/O in main.py (`run`, the menu loops, `input`, `print`, colours, `exit`): interactive dispatch with no logic of its own.
- config.py: the storage mode and paths are parameters of `Persistence.Open`.
- Real files and JSON:
  - `Common.Value` has no JSON numbers, arrays or nested objects, so stored data such as `"user_id": 7`, which `int()` in `_get_next_id` would accept, cannot be represented; a `Parser` returns `None` for such text;
  - `open`, `os.path` and `json.dump` are modelled by the `Text` variants;
  - `json.loads` is a caller-supplied `Parser`, whose rejection is the `BadJson` error;
  - the `indent=2` formatting is not modelled.
- The clock and date formatting:
  - `datetime.now` becomes the `now` parameter;
  - an ISO date string is the instant it denotes, so `isoformat`/`fromisoformat` round-trip by construction.
- `Checkout.__str__`: display only, and it needs date formatting.
- `list_books` and `list_users` return the registry's own list, which is the `books` and `users` field of the model.
- The `LibraryItem` abstract base class: it has one concrete subclass, so its fields are folded into `Books.Book`.
- The direct writes to `_title` and `_author` in `update_book` are modelled as a record update in `BookManagement.UpdateBook`. Python's read-only properties have no counterpart, since every field of an immutable datatype is read-only.
- Non-atomic dual writes in `checkout_book` and `return_book`: a crash between the two saves is a concurrency concern, outside a sequential model.
- The dead branch at library/managers/checkout_manager.py:99-100 cannot be reached, because the search at line 95 already requires a book. `CheckoutManagement.ReturnBook` has no such branch.
- Books.FromDict: rejects any record whose title, author and ISBN are not strings or whose `available` is not a boolean. The source loads such a book, and only some of these fail later:
  - a non-string title or author raises at `.lower()` in `search_books` (library/managers/book_manager.py:135);
  - a non-string ISBN never fails, it just never equals a looked-up ISBN (library/managers/book_manager.py:72);
  - a non-boolean `available` never fails, since every use is a truthiness test (library/managers/checkout_manager.py:75, 95, 114), so `null` acts as lent and `"no"` as available.
- Users.FromDict: rejects a record whose `name` is not a string, where the source copies any value into the user. It also accepts only canonical decimal ids, because the source's own `int(user_id)` in `_get_next_id` would raise on anything non-numeric. Ids such as "007" or " 7", which Python's `int` accepts, are rejected here rather than modelled.
- Checkouts.FromDict: any malformed record is one `Malformed` error. The source skips records that raise `AttributeError` and lets every other exception propagate. A `KeyError` or a failed `fromisoformat` propagates there too, which is the case modelled.
- CheckoutManagement.Consistent:
  - In the source, a checkout keeps its book object even after that book is deleted from the registry.
  - The model reads availability by ISBN, so it agrees with the source only while this invariant holds.
  - Deleting a lent-out book breaks the invariant, and the model then diverges from the detached object's flag.
- Cli.ValidateIsbn: `\d` is modelled over ASCII. Python's regular expressions also accept other Unicode decimal digits. The final-newline case of `$` is modelled.
- Books.LabelDeterminesIsbn: the printed form does not fix where the title ends and the author begins, since a title may itself contain " by "; nor does it show availability.
- Strings.Lower: models `str.lower()` on ASCII letters only.
- UserManagement.Valid: the id-uniqueness invariant is stated as a ghost predicate, and operations preserve it. Stored data that violates it, such as duplicate ids in a hand-edited file, is loaded as the source loads it.

=== FILE: book_manager.dfy ===
/**
 * The book registry (library/managers/book_manager.py): books in insertion
 * order, unique ISBNs enforced on add, and the whole collection written through
 * to storage after every successful mutation. A failure returns no new
 * registry, so the caller's registry is left exactly as it was.
 */
module BookManagement {
  import opened Common
  import opened Strings
  import opened Books
  import opened Persistence

  datatype BookManager = BookManager(books: seq<Book>, store: Storage)

  predicate HasIsbn(books: seq<Book>, isbn: string) {
    exists i :: 0 <= i < |books| && books[i].isbn == isbn
  }

  /** No two books in the registry share an ISBN. */
  ghost predicate UniqueIsbns(books: seq<Book>) {
    forall i, j :: 0 <= i < |books| && 0 <= j < |books| && books[i].isbn == books[j].isbn ==> i == j
  }

  /** The serialised form of the collection, `[book.to_dict() for book in books]`. */
  function BookRecords(books: seq<Book>): seq<Record> {
    Map(books, ToDict)
  }

  /** Storage holds, for any parser, exactly the serialisation of `books`. */
  ghost predicate WrittenThrough(s: Storage, books: seq<Book>) {
    forall parse :: Load(s, parse) == Success(BookRecords(books))
  }

  /** `_load_books`: every stored record must convert to a book. */
  function LoadBooks(store: Storage, parse: Parser): (r: Result<BookManager>)
    ensures r.Success? ==> r.value.store == store
    ensures r.Success? ==> Load(store, parse).Success?
                           && |r.value.books| == |Load(store, parse).value|
                           && forall i :: 0 <= i < |r.value.books| ==>
                                FromDict(Load(store, parse).value[i]) == Success(r.value.books[i])
    ensures Load(store, parse).Failure? ==> r.Failure?
    ensures r.Success? <==> Load(store, parse).Success?
                            && forall i :: 0 <= i < |Load(store, parse).value| ==> WellFormed(Load(store, parse).value[i])
  {
    var data :- Load(store, parse);
    var books :- ParseAll(data, FromDict);
    Success(BookManager(books, store))
  }

  /** `save_books`: the collection is unchanged and storage now holds its serialisation. */
  function SaveBooks(m: BookManager): (r: BookManager)
    ensures r.books == m.books
    ensures WrittenThrough(r.store, r.books)
  {
    m.(store := Save(m.store, BookRecords(m.books)))
  }

  /** Re-running `_load_books` on the store just saved gives back the same books. */
  lemma ReloadAfterSave(m: BookManager, parse: Parser)
    ensures LoadBooks(SaveBooks(m).store, parse).Success?
    ensures LoadBooks(SaveBooks(m).store, parse).value.books == m.books
  {
    var s := SaveBooks(m).store;
    assert Load(s, parse) == Success(BookRecords(m.books));
    var r := LoadBooks(s, parse);
    assert forall i :: 0 <= i < |m.books| ==> FromDict(BookRecords(m.books)[i]) == Success(m.books[i]);
    assert r.Success?;
    assert |r.value.books| == |m.books|;
    assert forall i :: 0 <= i < |m.books| ==> r.value.books[i] == m.books[i];
  }

  /** Position of the first book with `isbn`, the one `get_book_by_isbn` finds. */
  function IndexOfIsbn(books: seq<Book>, isbn: string): (r: Option<nat>)
    ensures r.Some? ==> r.value < |books| && books[r.value].isbn == isbn
    ensures r.Some? ==> forall j :: 0 <= j < r.value ==> books[j].isbn != isbn
    ensures r.None? <==> !HasIsbn(books, isbn)
  {
    FirstIndex(books, (b: Book) => b.isbn == isbn)
  }

  /** `get_book_by_isbn`: the first book with that ISBN, or none. */
  function GetBookByIsbn(books: seq<Book>, isbn: string): (r: Option<Book>)
    ensures r.None? <==> !HasIsbn(books, isbn)
    ensures r.Some? ==> r.value.isbn == isbn && r.value in books
    ensures r.Some? ==> exists i :: 0 <= i < |books| && books[i] == r.value
                                 && forall j :: 0 <= j < i ==> books[j].isbn != isbn
  {
    match IndexOfIsbn(books, isbn)
    case None => None
    case Some(i) => Some(books[i])
  }

  /** With unique ISBNs, the lookup finds the one book carrying that ISBN. */
  lemma LookupUnique(books: seq<Book>, k: nat)
    requires UniqueIsbns(books) && k < |books|
    ensures IndexOfIsbn(books, books[k].isbn) == Some(k)
    ensures GetBookByIsbn(books, books[k].isbn) == Some(books[k])
  {
  }

  /** `add_book`. */
  function AddBook(m: BookManager, title: string, author: string, isbn: string): (r: Result<(BookManager, Book)>)
    ensures r.Failure? && r.error == MissingField <==> title == "" || author == "" || isbn == ""
    ensures r.Failure? && r.error == DuplicateIsbn <==>
              title != "" && author != "" && isbn != "" && HasIsbn(m.books, isbn)
    ensures r.Success? <==> title != "" && author != "" && isbn != "" && !HasIsbn(m.books, isbn)
    ensures r.Success? ==> var (m', b) := r.value;
              && b == NewBook(title, author, isbn) && b.available
              && m'.books == m.books + [b]
              && WrittenThrough(m'.store, m'.books)
    ensures r.Success? && UniqueIsbns(m.books) ==> UniqueIsbns(r.value.0.books)
  {
    if title == "" || author == "" || isbn == "" then Failure(MissingField)
    else if GetBookByIsbn(m.books, isbn).Some? then Failure(DuplicateIsbn)
    else
      var b := NewBook(title, author, isbn);
      Success((SaveBooks(m.(books := m.books + [b])), b))
  }

  /** The value `update_book` keeps for an optional argument: Python's `if title:` skips `None` and "". */
  function Chosen(arg: Option<string>, current: string): (r: string)
    ensures arg.Some? && arg.value != "" ==> r == arg.value
    ensures arg.None? || arg.value == "" ==> r == current
  {
    if arg.Some? && arg.value != "" then arg.value else current
  }

  /** `update_book`: non-empty arguments replace title and author of the first book with `isbn`. */
  function UpdateBook(m: BookManager, isbn: string, title: Option<string>, author: Option<string>)
    : (r: Result<(BookManager, Book)>)
    ensures r.Failure? <==> !HasIsbn(m.books, isbn)
    ensures r.Failure? ==> r.error == BookNotFound
    ensures r.Success? ==> var (m', b) := r.value;
              var k := IndexOfIsbn(m.books, isbn).value;
              && |m'.books| == |m.books|
              && m'.books[k] == b
              && b.isbn == isbn && b.available == m.books[k].available
              && b.title == (if title.Some? && title.value != "" then title.value else m.books[k].title)
              && b.author == (if author.Some? && author.value != "" then author.value else m.books[k].author)
              && (forall j :: 0 <= j < |m.books| && j != k ==> m'.books[j] == m.books[j])
              && WrittenThrough(m'.store, m'.books)
    ensures r.Success? ==> forall j :: 0 <= j < |m.books| ==> r.value.0.books[j].isbn == m.books[j].isbn
    ensures r.Success? && UniqueIsbns(m.books) ==> UniqueIsbns(r.value.0.books)
  {
    match IndexOfIsbn(m.books, isbn)
    case None => Failure(BookNotFound)
    case Some(k) =>
      var current := m.books[k];
      var b := current.(title := Chosen(title, current.title), author := Chosen(author, current.author));
      Success((SaveBooks(m.(books := m.books[k := b])), b))
  }

  /** `delete_book`: the first book with `isbn` is removed, the others keep their order. */
  function DeleteBook(m: BookManager, isbn: string): (r: Result<BookManager>)
    ensures r.Failure? <==> !HasIsbn(m.books, isbn)
    ensures r.Failure? ==> r.error == BookNotFound
    ensures r.Success? ==> var k := IndexOfIsbn(m.books, isbn).value;
              && r.value.books == m.books[..k] + m.books[k + 1..]
              && WrittenThrough(r.value.store, r.value.books)
    ensures r.Success? && UniqueIsbns(m.books) ==>
              && UniqueIsbns(r.value.books)
              && !HasIsbn(r.value.books, isbn)
              && forall b :: b in m.books && b.isbn != isbn ==> b in r.value.books
  {
    match IndexOfIsbn(m.books, isbn)
    case None => Failure(BookNotFound)
    case Some(k) => Success(SaveBooks(m.(books := RemoveAt(m.books, k))))
  }

  /** A book matches a lower-cased keyword when its lower-cased title or author contains it. */
  predicate BookMatches(b: Book, keyword: string) {
    Contains(Lower(b.title), keyword) || Contains(Lower(b.author), keyword)
  }

  /** `search_books`: the matching books in registry order. */
  function SearchBooks(m: BookManager, keyword: string): (r: seq<Book>)
    ensures forall b :: b in r <==>
              (b in m.books && (OccursIn(Lower(keyword), Lower(b.title)) || OccursIn(Lower(keyword), Lower(b.author))))
    ensures |r| <= |m.books|
  {
    var kw := Lower(keyword);
    var r := Filter(m.books, (b: Book) => BookMatches(b, kw));
    forall b: Book ensures BookMatches(b, kw) <==> OccursIn(kw, Lower(b.title)) || OccursIn(kw, Lower(b.author)) {
      ContainsIffOccurs(Lower(b.title), kw);
      ContainsIffOccurs(Lower(b.author), kw);
    }
    r
  }

  /** The search result splits along any split of the registry: matches keep registry order. */
  lemma SearchPreservesOrder(a: seq<Book>, b: seq<Book>, store: Storage, keyword: string)
    ensures SearchBooks(BookManager(a + b, store), keyword)
         == SearchBooks(BookManager(a, store), keyword) + SearchBooks(BookManager(b, store), keyword)
  {
    var kw := Lower(keyword);
    FilterAppend(a, b, (x: Book) => BookMatches(x, kw));
  }

  /** Searching ignores case in the keyword. */
  lemma SearchIgnoresKeywordCase(m: BookManager, keyword: string)
    ensures SearchBooks(m, keyword) == SearchBooks(m, Lower(keyword))
  {
    LowerIdempotent(keyword);
  }
}

=== FILE: books.dfy ===
/**
 * A catalogue book (library/book.py). The abstract `LibraryItem` base class has
 * a single concrete variant, so its fields and the `Book` subclass's author are
 * collapsed into one record. Title, author and ISBN have read-only accessors;
 * only availability has a setter.
 */
module Books {
  import opened Common
  import opened Strings

  datatype Book = Book(title: string, author: string, isbn: string, available: bool)

  /** `Book(title, author, isbn)`: a new item is available. */
  function NewBook(title: string, author: string, isbn: string): (b: Book)
    ensures b.title == title && b.author == author && b.isbn == isbn
    ensures b.available
  {
    Book(title, author, isbn, true)
  }

  /** The `available` setter: it touches nothing but the availability flag. */
  function SetAvailable(b: Book, value: bool): (r: Book)
    ensures r.available == value
    ensures r.title == b.title && r.author == b.author && r.isbn == b.isbn
    ensures value == b.available ==> r == b
  {
    b.(available := value)
  }

  /** `__str__`: "<title> by <author> (ISBN: <isbn>)". */
  function Label(b: Book): (s: string)
    ensures |s| == |b.title| + |b.author| + |b.isbn| + 13
    ensures b.title <= s
    ensures s[|b.title|..|b.title| + 4] == " by "
    ensures s[|b.title| + 4..|b.title| + 4 + |b.author|] == b.author
    ensures s[|s| - |b.isbn| - 9..] == " (ISBN: " + b.isbn + ")"
  {
    b.title + " by " + b.author + " (ISBN: " + b.isbn + ")"
  }

  /**
   * The printed form identifies the ISBN of a book whose ISBN has no space,
   * as every ISBN the command line accepts; the rest of the label is then
   * "<title> by <author>".
   */
  lemma LabelDeterminesIsbn(b1: Book, b2: Book)
    requires forall i :: 0 <= i < |b1.isbn| ==> b1.isbn[i] != ' '
    requires forall i :: 0 <= i < |b2.isbn| ==> b2.isbn[i] != ' '
    requires Label(b1) == Label(b2)
    ensures b1.isbn == b2.isbn
    ensures b1.title + " by " + b1.author == b2.title + " by " + b2.author
  {
    var p1 := b1.title + " by " + b1.author + " (ISBN:";
    var p2 := b2.title + " by " + b2.author + " (ISBN:";
    assert Label(b1) == p1 + " " + b1.isbn + ")";
    assert Label(b2) == p2 + " " + b2.isbn + ")";
    LastWordUnique(p1, b1.isbn, p2, b2.isbn);
    assert b1.title + " by " + b1.author == p1[..|p1| - 7];
    assert b2.title + " by " + b2.author == p2[..|p2| - 7];
  }

  /** `to_dict`: exactly the four keys, and `FromDict` reads the same book back. */
  function ToDict(b: Book): (d: Record)
    ensures d.Keys == {"title", "author", "isbn", "available"}
    ensures FromDict(d) == Success(b)
  {
    map["title" := Str(b.title), "author" := Str(b.author), "isbn" := Str(b.isbn),
        "available" := Bool(b.available)]
  }

  /** The record holds the four keys with a string or, for availability, a boolean value. */
  predicate WellFormed(d: Record) {
    && "title" in d && d["title"].Str?
    && "author" in d && d["author"].Str?
    && "isbn" in d && d["isbn"].Str?
    && "available" in d && d["available"].Bool?
  }

  /** `from_dict`: construct from the three strings, then overwrite availability. */
  function FromDict(d: Record): (r: Result<Book>)
    ensures r.Failure? <==> !WellFormed(d)
    ensures r.Failure? ==> r.error == Malformed
    ensures r.Success? ==> r.value.title == d["title"].s && r.value.author == d["author"].s
    ensures r.Success? ==> r.value.isbn == d["isbn"].s && r.value.available == d["available"].b
  {
    if !WellFormed(d) then Failure(Malformed)
    else Success(SetAvailable(NewBook(d["title"].s, d["author"].s, d["isbn"].s), d["available"].b))
  }
}

=== FILE: checkout_manager.dfy ===
/**
 * The checkout coordinator (library/managers/checkout_manager.py). It holds
 * the active checkouts and drives each book's Available -> CheckedOut ->
 * Available cycle by flipping the `available` flag of the book in the book
 * registry; every success writes both the checkouts and the books through to
 * their stores. In the source a checkout points at the registry's own book
 * object; here it holds the ISBN and the flag is read from the registry.
 */
module CheckoutManagement {
  import opened Common
  import opened Strings
  import opened Books
  import opened Users
  import opened Persistence
  import opened BookManagement
  import opened UserManagement
  import opened Checkouts

  datatype Library = Library(books: BookManager, users: UserManager, checkouts: seq<Checkout>, store: Storage)

  /** Python's `checkout.user and checkout.book`. */
  predicate HasBothRefs(c: Checkout) {
    c.user.Some? && c.book.Some?
  }

  /** Some active checkout names `isbn`. */
  predicate CheckedOut(cs: seq<Checkout>, isbn: string) {
    exists i :: 0 <= i < |cs| && cs[i].book == Some(isbn)
  }

  /**
   * The coordinator's invariant: ISBNs are unique, every active checkout names
   * a user and a registered book, no book is in two active checkouts, and a
   * book is unavailable exactly when an active checkout names it. While it
   * holds, reading availability through the ISBN agrees with the source's
   * shared book objects.
   */
  ghost predicate Consistent(lib: Library) {
    && UniqueIsbns(lib.books.books)
    && RefsRegistered(lib.books.books, lib.checkouts)
    && NoBookTwice(lib.checkouts)
    && AvailabilityMatches(lib.books.books, lib.checkouts)
  }

  ghost predicate RefsRegistered(books: seq<Book>, cs: seq<Checkout>) {
    forall i :: 0 <= i < |cs| ==> HasBothRefs(cs[i]) && HasIsbn(books, cs[i].book.value)
  }

  ghost predicate NoBookTwice(cs: seq<Checkout>) {
    forall i, j :: 0 <= i < |cs| && 0 <= j < |cs| && cs[i].book == cs[j].book ==> i == j
  }

  ghost predicate AvailabilityMatches(books: seq<Book>, cs: seq<Checkout>) {
    forall k :: 0 <= k < |books| ==> (!books[k].available <==> CheckedOut(cs, books[k].isbn))
  }

  /** Books with the same ISBNs, position by position. */
  ghost predicate SameIsbns(a: seq<Book>, b: seq<Book>) {
    |a| == |b| && forall j :: 0 <= j < |a| ==> a[j].isbn == b[j].isbn
  }

  /** Changing only availability flags moves no book as far as ISBN lookups can tell. */
  lemma SameIsbnsSameLookup(a: seq<Book>, b: seq<Book>, isbn: string)
    requires SameIsbns(a, b)
    ensures HasIsbn(a, isbn) <==> HasIsbn(b, isbn)
    ensures IndexOfIsbn(a, isbn) == IndexOfIsbn(b, isbn)
    ensures UniqueIsbns(a) ==> UniqueIsbns(b)
  {
    var ra, rb := IndexOfIsbn(a, isbn), IndexOfIsbn(b, isbn);
    if ra.Some? {
      assert b[ra.value].isbn == isbn;
    }
    if rb.Some? {
      assert a[rb.value].isbn == isbn;
    }
    if ra.Some? && rb.Some? {
      assert ra.value <= rb.value && rb.value <= ra.value;
    }
    SameIsbnsUnique(a, b);
  }

  lemma SameIsbnsUnique(a: seq<Book>, b: seq<Book>)
    requires SameIsbns(a, b)
    ensures UniqueIsbns(a) ==> UniqueIsbns(b)
  {
    if UniqueIsbns(a) {
      forall i, j | 0 <= i < |b| && 0 <= j < |b| && b[i].isbn == b[j].isbn ensures i == j {
        assert a[i].isbn == a[j].isbn;
      }
    }
  }

  lemma SetAvailableSameIsbns(books: seq<Book>, k: nat, v: bool)
    requires k < |books|
    ensures SameIsbns(books, books[k := SetAvailable(books[k], v)])
  {
  }

  /** `save_checkouts`' payload: the dicts of the checkouts that have both references. */
  function CheckoutRecords(cs: seq<Checkout>): (r: seq<Record>)
    ensures |r| == |Filter(cs, HasBothRefs)|
    ensures forall i :: 0 <= i < |r| ==> r[i] == Checkouts.ToDict(Filter(cs, HasBothRefs)[i])
    ensures forall i :: 0 <= i < |r| ==>
              "user_id" in r[i] && r[i]["user_id"] != Null && "book_isbn" in r[i] && r[i]["book_isbn"] != Null
  {
    Map(Filter(cs, HasBothRefs), Checkouts.ToDict)
  }

  /** Storage holds, for any parser, exactly what `save_checkouts` writes for `cs`. */
  ghost predicate CheckoutsWritten(s: Storage, cs: seq<Checkout>) {
    forall parse :: Load(s, parse) == Success(CheckoutRecords(cs))
  }

  /** `save_checkouts`. */
  function SaveCheckouts(lib: Library): (r: Library)
    ensures r.books == lib.books && r.users == lib.users && r.checkouts == lib.checkouts
    ensures CheckoutsWritten(r.store, r.checkouts)
  {
    lib.(store := Save(lib.store, CheckoutRecords(lib.checkouts)))
  }

  /** Converts every stored record, resolving its references against the registries. */
  function ParseCheckouts(data: seq<Record>, users: seq<User>, books: seq<Book>): (r: Result<seq<Checkout>>)
    ensures r.Success? ==> |r.value| == |data|
    ensures r.Success? ==> forall i :: 0 <= i < |data| ==> Checkouts.FromDict(data[i], users, books) == Success(r.value[i])
    ensures r.Failure? <==> exists i :: 0 <= i < |data| && !Checkouts.WellFormed(data[i])
  {
    ParseAll(data, (d: Record) => Checkouts.FromDict(d, users, books))
  }

  /** `_load_checkouts`: stored checkouts whose user or book no longer resolves are dropped silently. */
  function LoadCheckouts(store: Storage, parse: Parser, users: seq<User>, books: seq<Book>)
    : (r: Result<seq<Checkout>>)
    ensures Load(store, parse).Failure? ==> r.Failure?
    ensures r.Success? ==> Load(store, parse).Success?
                           && ParseCheckouts(Load(store, parse).value, users, books).Success?
                           && r.value == Filter(ParseCheckouts(Load(store, parse).value, users, books).value, HasBothRefs)
    ensures r.Success? ==> forall i :: 0 <= i < |r.value| ==> HasBothRefs(r.value[i]) && RefsResolve(r.value[i], users, books)
    ensures r.Success? <==> Load(store, parse).Success?
                            && forall i :: 0 <= i < |Load(store, parse).value| ==> Checkouts.WellFormed(Load(store, parse).value[i])
  {
    var data :- Load(store, parse);
    var parsed :- ParseCheckouts(data, users, books);
    var kept := Filter(parsed, HasBothRefs);
    forall i | 0 <= i < |kept| ensures RefsResolve(kept[i], users, books) {
      var c := kept[i];
      var j :| 0 <= j < |parsed| && parsed[j] == c;
      GetUserByNumber(users, c.user.value);
      var key := data[j]["user_id"].s;
      NatToStringOfParse(key);
      assert HasId(users, key);
      var u := GetUserById(users, key).value;
      NatToStringInjective(u.id, c.user.value);
    }
    Success(kept)
  }

  /** `CheckoutManager.__init__`: the coordinator starts from the checkouts that still resolve. */
  function OpenLibrary(books: BookManager, users: UserManager, store: Storage, parse: Parser): (r: Result<Library>)
    ensures r.Success? ==> r.value.books == books && r.value.users == users && r.value.store == store
    ensures r.Success? ==> forall i :: 0 <= i < |r.value.checkouts| ==>
              HasBothRefs(r.value.checkouts[i]) && RefsResolve(r.value.checkouts[i], users.users, books.books)
    ensures r.Failure? <==> LoadCheckouts(store, parse, users.users, books.books).Failure?
    ensures r.Success? ==> r.value.checkouts == LoadCheckouts(store, parse, users.users, books.books).value
  {
    var cs :- LoadCheckouts(store, parse, users.users, books.books);
    Success(Library(books, users, cs, store))
  }

  /** Re-running `_load_checkouts` on the store just saved, against registries in which every reference still resolves, loses nothing. */
  lemma {:induction false} ReloadAfterSave(lib: Library, parse: Parser)
    requires forall i :: 0 <= i < |lib.checkouts| ==>
               HasBothRefs(lib.checkouts[i]) && RefsResolve(lib.checkouts[i], lib.users.users, lib.books.books)
    ensures LoadCheckouts(SaveCheckouts(lib).store, parse, lib.users.users, lib.books.books) == Success(lib.checkouts)
  {
    var cs := lib.checkouts;
    FilterAll(cs, HasBothRefs);
    var data := CheckoutRecords(cs);
    assert Load(SaveCheckouts(lib).store, parse) == Success(data);
    forall i | 0 <= i < |cs| ensures Checkouts.FromDict(data[i], lib.users.users, lib.books.books) == Success(cs[i]) {
      RoundTrip(cs[i], lib.users.users, lib.books.books);
    }
    var parsed := ParseCheckouts(data, lib.users.users, lib.books.books);
    assert parsed.Success?;
    assert parsed.value == cs;
    FilterAll(parsed.value, HasBothRefs);
  }

  /**
   * Deleting a user and then re-running `_load_checkouts` on the store the
   * coordinator last saved keeps no checkout that names the deleted user.
   */
  lemma ReloadDropsDeletedUser(lib: Library, key: string, parse: Parser)
    requires Valid(lib.users)
    requires CheckoutsWritten(lib.store, lib.checkouts)
    requires DeleteUser(lib.users, key).Success?
    ensures var users' := DeleteUser(lib.users, key).value.users;
            var r := LoadCheckouts(lib.store, parse, users', lib.books.books);
            r.Success? && forall i :: 0 <= i < |r.value| ==> NatToString(r.value[i].user.value) != key
  {
    var users' := DeleteUser(lib.users, key).value.users;
    var r := LoadCheckouts(lib.store, parse, users', lib.books.books);
    if r.Success? {
      forall i | 0 <= i < |r.value| ensures NatToString(r.value[i].user.value) != key {
        var id := r.value[i].user.value;
        var j :| 0 <= j < |users'| && users'[j].id == id;
        assert IdString(users'[j]) == NatToString(id);
      }
    }
  }

  /** `checkout_book`: unknown user, then unknown book, then unavailable book, else a new loan. */
  function CheckoutBook(lib: Library, userKey: string, isbn: string, now: int): (r: Result<(Library, Checkout)>)
    ensures r.Failure? && r.error == UserNotFound <==> !HasId(lib.users.users, userKey)
    ensures r.Failure? && r.error == BookNotFound <==>
              HasId(lib.users.users, userKey) && !HasIsbn(lib.books.books, isbn)
    ensures r.Failure? && r.error == NotAvailable <==>
              HasId(lib.users.users, userKey) && HasIsbn(lib.books.books, isbn)
              && !lib.books.books[IndexOfIsbn(lib.books.books, isbn).value].available
    ensures r.Success? <==>
              && HasId(lib.users.users, userKey) && HasIsbn(lib.books.books, isbn)
              && lib.books.books[IndexOfIsbn(lib.books.books, isbn).value].available
    ensures r.Success? ==> var (lib', c) := r.value;
              var books := lib.books.books;
              var k := IndexOfIsbn(books, isbn).value;
              && books[k].available
              && lib'.books.books == books[k := SetAvailable(books[k], false)]
              && lib'.checkouts == lib.checkouts + [c]
              && c == NewCheckout(GetUserById(lib.users.users, userKey).value, books[k], now)
              && NatToString(c.user.value) == userKey && c.book == Some(isbn)
              && lib'.users == lib.users
              && CheckoutsWritten(lib'.store, lib'.checkouts)
              && BookManagement.WrittenThrough(lib'.books.store, lib'.books.books)
  {
    var user := GetUserById(lib.users.users, userKey);
    var book := GetBookByIsbn(lib.books.books, isbn);
    if user.None? then Failure(UserNotFound)
    else if book.None? then Failure(BookNotFound)
    else if !book.value.available then Failure(NotAvailable)
    else
      var k := IndexOfIsbn(lib.books.books, isbn).value;
      var c := NewCheckout(user.value, book.value, now);
      var lib1 := lib.(books := lib.books.(books := lib.books.books[k := SetAvailable(book.value, false)]),
                       checkouts := lib.checkouts + [c]);
      var lib2 := SaveCheckouts(lib1);
      Success((lib2.(books := SaveBooks(lib2.books)), c))
  }

  /** The source's return test for one checkout: it names `isbn` and that book is currently unavailable. */
  predicate Returnable(books: seq<Book>, isbn: string, c: Checkout) {
    && c.book == Some(isbn)
    && GetBookByIsbn(books, isbn).Some?
    && !GetBookByIsbn(books, isbn).value.available
  }

  /** The checkout `return_book` settles: the first returnable one. */
  function IndexOfReturnable(books: seq<Book>, cs: seq<Checkout>, isbn: string): (r: Option<nat>)
    ensures r.Some? ==> r.value < |cs| && Returnable(books, isbn, cs[r.value])
    ensures r.Some? ==> forall j :: 0 <= j < r.value ==> !Returnable(books, isbn, cs[j])
    ensures r.None? <==> forall j :: 0 <= j < |cs| ==> !Returnable(books, isbn, cs[j])
  {
    FirstIndex(cs, (c: Checkout) => Returnable(books, isbn, c))
  }

  /** `return_book`: the book becomes available and only the first returnable checkout is removed. */
  function ReturnBook(lib: Library, isbn: string): (r: Result<Library>)
    ensures r.Failure? <==> forall j :: 0 <= j < |lib.checkouts| ==> !Returnable(lib.books.books, isbn, lib.checkouts[j])
    ensures r.Failure? ==> r.error == NotCheckedOut
    ensures r.Success? ==> var books := lib.books.books;
              var i := IndexOfReturnable(books, lib.checkouts, isbn).value;
              var k := IndexOfIsbn(books, isbn).value;
              && !books[k].available
              && r.value.books.books == books[k := SetAvailable(books[k], true)]
              && r.value.checkouts == lib.checkouts[..i] + lib.checkouts[i + 1..]
              && lib.checkouts[i].book == Some(isbn)
              && r.value.users == lib.users
              && CheckoutsWritten(r.value.store, r.value.checkouts)
              && BookManagement.WrittenThrough(r.value.books.store, r.value.books.books)
  {
    match IndexOfReturnable(lib.books.books, lib.checkouts, isbn)
    case None => Failure(NotCheckedOut)
    case Some(i) =>
      var k := IndexOfIsbn(lib.books.books, isbn).value;
      var books := lib.books.books;
      var lib1 := lib.(books := lib.books.(books := books[k := SetAvailable(books[k], true)]),
                       checkouts := RemoveAt(lib.checkouts, i));
      var lib2 := SaveCheckouts(lib1);
      Success(lib2.(books := SaveBooks(lib2.books)))
  }

  /** The book a checkout keeps out of circulation, if it names a registered, unavailable book. */
  function CheckedOutBook(books: seq<Book>, c: Checkout): (r: Option<Book>)
    ensures r.Some? ==> r.value in books && !r.value.available && c.book == Some(r.value.isbn)
    ensures r.Some? ==> r == GetBookByIsbn(books, c.book.value)
    ensures r.Some? <==> c.book.Some? && GetBookByIsbn(books, c.book.value).Some?
                         && !GetBookByIsbn(books, c.book.value).value.available
  {
    if c.book.None? then None
    else
      match GetBookByIsbn(books, c.book.value)
      case None => None
      case Some(b) => if b.available then None else Some(b)
  }

  /** What one checkout adds to the checked-out list: its book, when it keeps one out. */
  function Contribution(books: seq<Book>): Checkout -> seq<Book> {
    c => match CheckedOutBook(books, c) case None => [] case Some(b) => [b]
  }

  /** The comprehension of `get_checked_out_books`: each checkout's book, when it keeps one out, in checkout order. */
  function CheckedOutBooksOf(books: seq<Book>, cs: seq<Checkout>): seq<Book> {
    Collect(cs, Contribution(books))
  }

  /** A book is listed exactly when some checkout keeps it out; there is at most one entry per checkout. */
  lemma {:induction false} CheckedOutBooksMembers(books: seq<Book>, cs: seq<Checkout>)
    ensures |CheckedOutBooksOf(books, cs)| <= |cs|
    ensures forall b :: b in CheckedOutBooksOf(books, cs) <==>
              exists i :: 0 <= i < |cs| && CheckedOutBook(books, cs[i]) == Some(b)
    decreases |cs|
  {
    if |cs| > 0 {
      var t := CheckedOutBooksOf(books, cs[1..]);
      CheckedOutBooksMembers(books, cs[1..]);
      assert CheckedOutBooksOf(books, cs) == Contribution(books)(cs[0]) + t;
      forall b ensures b in CheckedOutBooksOf(books, cs) <==>
                       exists i :: 0 <= i < |cs| && CheckedOutBook(books, cs[i]) == Some(b) {
        if b in t {
          var i :| 0 <= i < |cs[1..]| && CheckedOutBook(books, cs[1..][i]) == Some(b);
          assert cs[1..][i] == cs[i + 1];
        }
        if exists i :: 0 <= i < |cs| && CheckedOutBook(books, cs[i]) == Some(b) {
          var i :| 0 <= i < |cs| && CheckedOutBook(books, cs[i]) == Some(b);
          if i > 0 {
            assert cs[1..][i - 1] == cs[i];
          }
        }
      }
    }
  }

  /** `get_checked_out_books`. */
  function GetCheckedOutBooks(lib: Library): (r: seq<Book>)
    ensures |r| <= |lib.checkouts|
    ensures forall b :: b in r <==>
              exists i :: 0 <= i < |lib.checkouts| && CheckedOutBook(lib.books.books, lib.checkouts[i]) == Some(b)
    ensures forall b :: b in r ==> b in lib.books.books && !b.available
    ensures forall i :: 0 <= i < |lib.checkouts| && CheckedOutBook(lib.books.books, lib.checkouts[i]).Some?
              ==> CheckedOutBook(lib.books.books, lib.checkouts[i]).value in r
  {
    CheckedOutBooksMembers(lib.books.books, lib.checkouts);
    CheckedOutBooksOf(lib.books.books, lib.checkouts)
  }

  /** The comprehension splits along any split of the checkouts. */
  lemma CheckedOutBooksAppend(books: seq<Book>, a: seq<Checkout>, b: seq<Checkout>)
    ensures CheckedOutBooksOf(books, a + b) == CheckedOutBooksOf(books, a) + CheckedOutBooksOf(books, b)
  {
    CollectAppend(a, b, Contribution(books));
  }

  /** `get_checked_out_books` walks the checkouts in order: its list splits along any split of the checkouts. */
  lemma GetCheckedOutBooksAppend(lib: Library, a: seq<Checkout>, b: seq<Checkout>)
    ensures GetCheckedOutBooks(lib.(checkouts := a + b))
            == GetCheckedOutBooks(lib.(checkouts := a)) + GetCheckedOutBooks(lib.(checkouts := b))
  {
    CheckedOutBooksAppend(lib.books.books, a, b);
  }

  /** While the coordinator is consistent, the checked-out list holds exactly the unavailable books. */
  lemma CheckedOutBooksAreUnavailable(lib: Library)
    requires Consistent(lib)
    ensures forall b :: b in GetCheckedOutBooks(lib) <==> b in lib.books.books && !b.available
  {
    var books := lib.books.books;
    forall b | b in books && !b.available ensures b in GetCheckedOutBooks(lib) {
      var k :| 0 <= k < |books| && books[k] == b;
      var i :| 0 <= i < |lib.checkouts| && lib.checkouts[i].book == Some(b.isbn);
      LookupUnique(books, k);
      assert CheckedOutBook(books, lib.checkouts[i]) == Some(b);
    }
  }

  /** Appending a checkout of a registered book that no checkout names keeps references registered and books single. */
  lemma LendKeepsRefs(books: seq<Book>, books': seq<Book>, cs: seq<Checkout>, c: Checkout)
    requires SameIsbns(books, books') && RefsRegistered(books, cs) && NoBookTwice(cs)
    requires HasBothRefs(c) && HasIsbn(books', c.book.value) && !CheckedOut(cs, c.book.value)
    ensures RefsRegistered(books', cs + [c]) && NoBookTwice(cs + [c])
  {
    var cs' := cs + [c];
    forall i | 0 <= i < |cs| ensures HasIsbn(books', cs[i].book.value) {
      SameIsbnsSameLookup(books, books', cs[i].book.value);
    }
    assert forall i :: 0 <= i < |cs| ==> cs'[i] == cs[i] && cs[i].book != c.book;
  }

  /** Making available book `k` unavailable while appending its checkout keeps availability and the checkout list in step. */
  lemma LendKeepsAvailability(books: seq<Book>, cs: seq<Checkout>, k: nat, c: Checkout)
    requires UniqueIsbns(books) && AvailabilityMatches(books, cs)
    requires k < |books| && books[k].available && c.book == Some(books[k].isbn)
    ensures AvailabilityMatches(books[k := SetAvailable(books[k], false)], cs + [c])
  {
    var books' := books[k := SetAvailable(books[k], false)];
    var cs' := cs + [c];
    var isbn := books[k].isbn;
    forall j | 0 <= j < |books'| ensures !books'[j].available <==> CheckedOut(cs', books'[j].isbn) {
      if j == k {
        assert cs'[|cs|].book == Some(isbn);
      } else {
        assert books[j].isbn != isbn;
        if CheckedOut(cs', books'[j].isbn) {
          var i :| 0 <= i < |cs'| && cs'[i].book == Some(books'[j].isbn);
          assert cs[i] == cs'[i];
        }
        if CheckedOut(cs, books[j].isbn) {
          var i :| 0 <= i < |cs| && cs[i].book == Some(books[j].isbn);
          assert cs'[i] == cs[i];
        }
      }
    }
  }

  /** Lending book `k` to a new checkout keeps the coordinator invariant. */
  lemma LendKeepsStep(books: seq<Book>, cs: seq<Checkout>, k: nat, c: Checkout)
    requires UniqueIsbns(books) && RefsRegistered(books, cs) && NoBookTwice(cs) && AvailabilityMatches(books, cs)
    requires k < |books| && books[k].available
    requires HasBothRefs(c) && c.book == Some(books[k].isbn)
    ensures var books' := books[k := SetAvailable(books[k], false)];
            && UniqueIsbns(books') && RefsRegistered(books', cs + [c])
            && NoBookTwice(cs + [c]) && AvailabilityMatches(books', cs + [c])
  {
    var books' := books[k := SetAvailable(books[k], false)];
    var isbn := books[k].isbn;
    assert !CheckedOut(cs, isbn);
    SetAvailableSameIsbns(books, k, false);
    SameIsbnsSameLookup(books, books', isbn);
    assert books'[k].isbn == isbn;
    LendKeepsRefs(books, books', cs, c);
    LendKeepsAvailability(books, cs, k, c);
  }

  /** A successful checkout keeps the coordinator consistent. */
  lemma CheckoutPreservesConsistency(lib: Library, userKey: string, isbn: string, now: int)
    requires Consistent(lib)
    requires CheckoutBook(lib, userKey, isbn, now).Success?
    ensures Consistent(CheckoutBook(lib, userKey, isbn, now).value.0)
  {
    var (lib', c) := CheckoutBook(lib, userKey, isbn, now).value;
    var k := IndexOfIsbn(lib.books.books, isbn).value;
    LendKeepsStep(lib.books.books, lib.checkouts, k, c);
  }

  /** Removing checkout `i` keeps every remaining checkout registered and no book in two of them. */
  lemma SettleKeepsRefs(books: seq<Book>, books': seq<Book>, cs: seq<Checkout>, i: nat)
    requires SameIsbns(books, books') && RefsRegistered(books, cs) && NoBookTwice(cs) && i < |cs|
    ensures RefsRegistered(books', cs[..i] + cs[i + 1..]) && NoBookTwice(cs[..i] + cs[i + 1..])
  {
    var cs' := RemoveAt(cs, i);
    forall a | 0 <= a < |cs'| ensures HasBothRefs(cs'[a]) && HasIsbn(books', cs'[a].book.value) {
      var a0 := if a < i then a else a + 1;
      SameIsbnsSameLookup(books, books', cs[a0].book.value);
    }
    forall a, b | 0 <= a < |cs'| && 0 <= b < |cs'| && cs'[a].book == cs'[b].book ensures a == b {
      var a0 := if a < i then a else a + 1;
      var b0 := if b < i then b else b + 1;
      assert cs[a0].book == cs[b0].book;
    }
  }

  /** Making book `k` available while removing its checkout `i` keeps availability and the checkout list in step. */
  lemma SettleKeepsAvailability(books: seq<Book>, cs: seq<Checkout>, k: nat, i: nat)
    requires UniqueIsbns(books) && NoBookTwice(cs) && AvailabilityMatches(books, cs)
    requires k < |books| && i < |cs| && cs[i].book == Some(books[k].isbn)
    ensures AvailabilityMatches(books[k := SetAvailable(books[k], true)], cs[..i] + cs[i + 1..])
  {
    var books' := books[k := SetAvailable(books[k], true)];
    var cs' := RemoveAt(cs, i);
    var isbn := books[k].isbn;
    forall j | 0 <= j < |books'| ensures !books'[j].available <==> CheckedOut(cs', books'[j].isbn) {
      if j == k {
        forall a | 0 <= a < |cs'| ensures cs'[a].book != Some(isbn) {
          var a0 := if a < i then a else a + 1;
          assert cs'[a] == cs[a0] && a0 != i;
        }
      } else {
        assert books[j].isbn != isbn;
        if CheckedOut(cs', books'[j].isbn) {
          var a :| 0 <= a < |cs'| && cs'[a].book == Some(books'[j].isbn);
          var a0 := if a < i then a else a + 1;
          assert cs[a0].book == Some(books[j].isbn);
        }
        if CheckedOut(cs, books[j].isbn) {
          var a :| 0 <= a < |cs| && cs[a].book == Some(books[j].isbn);
          var a' := if a < i then a else a - 1;
          assert cs'[a'] == cs[a];
        }
      }
    }
  }

  /** Settling checkout `i` of book `k` keeps the coordinator invariant. */
  lemma SettleKeepsStep(books: seq<Book>, cs: seq<Checkout>, k: nat, i: nat)
    requires UniqueIsbns(books) && RefsRegistered(books, cs) && NoBookTwice(cs) && AvailabilityMatches(books, cs)
    requires k < |books| && i < |cs| && cs[i].book == Some(books[k].isbn)
    ensures var books' := books[k := SetAvailable(books[k], true)];
            var cs' := cs[..i] + cs[i + 1..];
            && UniqueIsbns(books') && RefsRegistered(books', cs')
            && NoBookTwice(cs') && AvailabilityMatches(books', cs')
  {
    var books' := books[k := SetAvailable(books[k], true)];
    SetAvailableSameIsbns(books, k, true);
    SameIsbnsSameLookup(books, books', books[k].isbn);
    SettleKeepsRefs(books, books', cs, i);
    SettleKeepsAvailability(books, cs, k, i);
  }

  /** A successful return keeps the coordinator consistent. */
  lemma ReturnPreservesConsistency(lib: Library, isbn: string)
    requires Consistent(lib)
    requires ReturnBook(lib, isbn).Success?
    ensures Consistent(ReturnBook(lib, isbn).value)
  {
    var i := IndexOfReturnable(lib.books.books, lib.checkouts, isbn).value;
    var k := IndexOfIsbn(lib.books.books, isbn).value;
    SettleKeepsStep(lib.books.books, lib.checkouts, k, i);
  }

  /** Right after book `k` is lent out, the new checkout is the first one a return of that ISBN can settle. */
  lemma NewCheckoutIsReturnable(books: seq<Book>, cs: seq<Checkout>, k: nat, c: Checkout)
    requires k < |books| && books[k].available
    requires IndexOfIsbn(books, books[k].isbn) == Some(k)
    requires !CheckedOut(cs, books[k].isbn) && c.book == Some(books[k].isbn)
    ensures IndexOfReturnable(books[k := SetAvailable(books[k], false)], cs + [c], books[k].isbn) == Some(|cs|)
  {
    var isbn := books[k].isbn;
    var books' := books[k := SetAvailable(books[k], false)];
    SetAvailableSameIsbns(books, k, false);
    SameIsbnsSameLookup(books, books', isbn);
    assert GetBookByIsbn(books', isbn) == Some(books'[k]);
    assert forall j :: 0 <= j < |cs| ==> (cs + [c])[j] == cs[j] && cs[j].book != Some(isbn);
    assert Returnable(books', isbn, (cs + [c])[|cs|]);
  }

  /** No return of an ISBN whose registered book is available can succeed. */
  lemma AvailableNotReturnable(books: seq<Book>, cs: seq<Checkout>, k: nat)
    requires k < |books| && books[k].available
    requires IndexOfIsbn(books, books[k].isbn) == Some(k)
    ensures IndexOfReturnable(books, cs, books[k].isbn).None?
  {
    assert GetBookByIsbn(books, books[k].isbn) == Some(books[k]);
  }

  /** Lending book `k` and then settling the loan just made restores both lists. */
  lemma LendThenSettle(books: seq<Book>, cs: seq<Checkout>, k: nat, c: Checkout)
    requires k < |books| && books[k].available
    requires IndexOfIsbn(books, books[k].isbn) == Some(k)
    requires !CheckedOut(cs, books[k].isbn) && c.book == Some(books[k].isbn)
    ensures var books' := books[k := SetAvailable(books[k], false)];
            && IndexOfReturnable(books', cs + [c], books[k].isbn) == Some(|cs|)
            && IndexOfIsbn(books', books[k].isbn) == Some(k)
            && books'[k := SetAvailable(books'[k], true)] == books
            && (cs + [c])[..|cs|] + (cs + [c])[|cs| + 1..] == cs
  {
    var books' := books[k := SetAvailable(books[k], false)];
    NewCheckoutIsReturnable(books, cs, k, c);
    SetAvailableSameIsbns(books, k, false);
    SameIsbnsSameLookup(books, books', books[k].isbn);
    assert (cs + [c])[..|cs|] == cs;
  }

  /**
   * Checking a book out and returning it restores the book list and the
   * checkout list; a second return of the same ISBN then fails.
   */
  lemma CheckoutThenReturn(lib: Library, userKey: string, isbn: string, now: int)
    requires Consistent(lib)
    requires CheckoutBook(lib, userKey, isbn, now).Success?
    ensures var lib1 := CheckoutBook(lib, userKey, isbn, now).value.0;
            && ReturnBook(lib1, isbn).Success?
            && ReturnBook(lib1, isbn).value.books.books == lib.books.books
            && ReturnBook(lib1, isbn).value.checkouts == lib.checkouts
            && ReturnBook(ReturnBook(lib1, isbn).value, isbn) == Failure(NotCheckedOut)
  {
    var (lib1, c) := CheckoutBook(lib, userKey, isbn, now).value;
    var books := lib.books.books;
    var k := IndexOfIsbn(books, isbn).value;
    assert !CheckedOut(lib.checkouts, isbn);
    LendThenSettle(books, lib.checkouts, k, c);
    var lib2 := ReturnBook(lib1, isbn).value;
    assert lib2.books.books == books && lib2.checkouts == lib.checkouts;
    AvailableNotReturnable(books, lib.checkouts, k);
  }

  /** Once a book is checked out, any further checkout of it fails, by unknown user or as unavailable. */
  lemma SecondCheckoutFails(lib: Library, userKey: string, otherKey: string, isbn: string, now: int, later: int)
    requires CheckoutBook(lib, userKey, isbn, now).Success?
    ensures var lib1 := CheckoutBook(lib, userKey, isbn, now).value.0;
            var r := CheckoutBook(lib1, otherKey, isbn, later);
            && r.Failure?
            && (HasId(lib.users.users, otherKey) ==> r.error == NotAvailable)
  {
    var lib1 := CheckoutBook(lib, userKey, isbn, now).value.0;
    var k := IndexOfIsbn(lib.books.books, isbn).value;
    SetAvailableSameIsbns(lib.books.books, k, false);
    SameIsbnsSameLookup(lib.books.books, lib1.books.books, isbn);
  }
}

=== FILE: checkouts.dfy ===
/**
 * A checkout record (library/checkout.py): a weak join of a user and a book,
 * kept here by key (the user's id and the book's ISBN), with a checkout
 * instant and a due instant in seconds. Either reference may be missing, as
 * it is in the source after a stored record fails to resolve.
 */
module Checkouts {
  import opened Common
  import opened Strings
  import opened Books
  import opened Users
  import opened BookManagement
  import opened UserManagement

  datatype Checkout = Checkout(user: Option<nat>, book: Option<string>, checkoutDate: int, dueDate: int)

  const SecondsPerDay: int := 24 * 60 * 60

  /** The loan period: two weeks. */
  const LoanPeriod: int := 14 * SecondsPerDay

  /** `Checkout(user, book)` at instant `now`. */
  function NewCheckout(user: User, book: Book, now: int): (c: Checkout)
    ensures c.user == Some(user.id) && c.book == Some(book.isbn)
    ensures c.checkoutDate == now
    ensures c.dueDate - c.checkoutDate == 1209600
  {
    Checkout(Some(user.id), Some(book.isbn), now, now + LoanPeriod)
  }

  /** `to_dict`: null for a missing reference, otherwise the user's id string and the book's ISBN. */
  function ToDict(c: Checkout): (d: Record)
    ensures d.Keys == {"user_id", "book_isbn", "checkout_date", "due_date"}
    ensures c.user.None? <==> d["user_id"] == Null
    ensures c.user.Some? ==> d["user_id"] == Str(NatToString(c.user.value))
    ensures c.book.None? <==> d["book_isbn"] == Null
    ensures c.book.Some? ==> d["book_isbn"] == Str(c.book.value)
    ensures d["checkout_date"] == Stamp(c.checkoutDate) && d["due_date"] == Stamp(c.dueDate)
  {
    map["user_id" := (match c.user case None => Null case Some(id) => Str(NatToString(id))),
        "book_isbn" := (match c.book case None => Null case Some(isbn) => Str(isbn)),
        "checkout_date" := Stamp(c.checkoutDate),
        "due_date" := Stamp(c.dueDate)]
  }

  /** Python truthiness of a stored reference: only a non-empty string can name anything. */
  predicate Names(v: Value) {
    v.Str? && v.s != ""
  }

  /** The user a stored `user_id` resolves to: none for a null or empty id, or one no user has. */
  function ResolveUser(v: Value, users: seq<User>): (r: Option<nat>)
    ensures r.Some? <==> Names(v) && HasId(users, v.s)
    ensures r.Some? ==> NatToString(r.value) == v.s
  {
    if !Names(v) then None
    else
      match GetUserById(users, v.s)
      case None => None
      case Some(u) => Some(u.id)
  }

  /** The book a stored `book_isbn` resolves to: none for a null or empty ISBN, or one no book has. */
  function ResolveBook(v: Value, books: seq<Book>): (r: Option<string>)
    ensures r.Some? <==> Names(v) && HasIsbn(books, v.s)
    ensures r.Some? ==> r.value == v.s
  {
    if !Names(v) then None
    else
      match GetBookByIsbn(books, v.s)
      case None => None
      case Some(b) => Some(b.isbn)
  }

  predicate WellFormed(d: Record) {
    && "user_id" in d && "book_isbn" in d
    && "checkout_date" in d && d["checkout_date"].Stamp?
    && "due_date" in d && d["due_date"].Stamp?
  }

  /**
   * `from_dict`: resolve both references against the registries, then
   * overwrite the constructor's dates with the stored ones.
   */
  function FromDict(d: Record, users: seq<User>, books: seq<Book>): (r: Result<Checkout>)
    ensures r.Failure? <==> !WellFormed(d)
    ensures r.Failure? ==> r.error == Malformed
    ensures r.Success? ==> r.value.user == ResolveUser(d["user_id"], users)
    ensures r.Success? ==> r.value.book == ResolveBook(d["book_isbn"], books)
    ensures r.Success? ==> r.value.checkoutDate == d["checkout_date"].t && r.value.dueDate == d["due_date"].t
  {
    if !WellFormed(d) then Failure(Malformed)
    else
      Success(Checkout(ResolveUser(d["user_id"], users), ResolveBook(d["book_isbn"], books),
                       d["checkout_date"].t, d["due_date"].t))
  }

  /** Every reference the checkout holds can be found again in the registries. */
  predicate RefsResolve(c: Checkout, users: seq<User>, books: seq<Book>) {
    && (c.user.Some? ==> exists i :: 0 <= i < |users| && users[i].id == c.user.value)
    && (c.book.Some? ==> c.book.value != "" && HasIsbn(books, c.book.value))
  }

  /** A checkout whose references still resolve reads back unchanged, dates included. */
  lemma RoundTrip(c: Checkout, users: seq<User>, books: seq<Book>)
    requires RefsResolve(c, users, books)
    ensures FromDict(ToDict(c), users, books) == Success(c)
  {
    if c.user.Some? {
      GetUserByNumber(users, c.user.value);
      NatToStringInjective(ResolveUser(ToDict(c)["user_id"], users).value, c.user.value);
    }
  }

  /** A reference to a user no longer registered reads back as missing. */
  lemma DanglingUserDropped(c: Checkout, users: seq<User>, books: seq<Book>)
    requires c.user.Some? && forall i :: 0 <= i < |users| ==> users[i].id != c.user.value
    ensures FromDict(ToDict(c), users, books).Success?
    ensures FromDict(ToDict(c), users, books).value.user.None?
  {
    GetUserByNumber(users, c.user.value);
  }
}

=== FILE: cli.dfy ===
/**
 * The two input validators of the command-line front end (main.py) and the
 * way its book-update prompt forwards an empty answer. `\d` is modelled over
 * ASCII digits and `\s` as Python's whitespace set; `$` also matches just
 * before a final newline, which the ISBN check below keeps.
 */
module Cli {
  import opened Common
  import opened Strings
  import opened BookManagement

  /** What `^\d{10}$` accepts: ten digits, optionally followed by one final newline. */
  predicate IsbnPattern(s: string) {
    && (|s| == 10 || (|s| == 11 && s[10] == '\n'))
    && forall i :: 0 <= i < 10 ==> IsDigit(s[i])
  }

  /** `validate_isbn`: a left-to-right match of ten digits and then the end of the text. */
  method ValidateIsbn(isbn: string) returns (ok: bool)
    ensures ok <==> IsbnPattern(isbn)
    ensures '\n' !in isbn ==> (ok <==> |isbn| == 10 && AllDigits(isbn))
  {
    if |isbn| < 10 {
      return false;
    }
    var i := 0;
    while i < 10
      invariant 0 <= i <= 10
      invariant forall j :: 0 <= j < i ==> IsDigit(isbn[j])
    {
      if !IsDigit(isbn[i]) {
        return false;
      }
      i := i + 1;
    }
    ok := |isbn| == 10 || (|isbn| == 11 && isbn[10] == '\n');
  }

  /** What `^[A-Za-z\s]+$` accepts: at least one character, each an ASCII letter or a whitespace character. */
  predicate NamePattern(s: string) {
    |s| > 0 && forall i :: 0 <= i < |s| ==> IsAsciiLetter(s[i]) || IsSpace(s[i])
  }

  /** `validate_name`: one or more letters or whitespace characters, then the end of the text. */
  method ValidateName(name: string) returns (ok: bool)
    ensures ok <==> NamePattern(name)
    ensures ok ==> forall i :: 0 <= i < |name| ==> !IsDigit(name[i])
  {
    if |name| == 0 {
      return false;
    }
    var i := 0;
    while i < |name|
      invariant 0 <= i <= |name|
      invariant forall j :: 0 <= j < i ==> IsAsciiLetter(name[j]) || IsSpace(name[j])
    {
      if !(IsAsciiLetter(name[i]) || IsSpace(name[i])) {
        return false;
      }
      i := i + 1;
    }
    ok := true;
  }

  /** The update prompt's answer as forwarded to `update_book`: an empty answer becomes `None`. */
  function Forwarded(answer: string): (r: Option<string>)
    ensures r.None? <==> answer == ""
    ensures r.Some? ==> r.value == answer
  {
    if answer == "" then None else Some(answer)
  }

  /** Forwarding an empty answer as `None` keeps the current value, just as passing "" would. */
  lemma ForwardingKeepsCurrent(m: BookManager, isbn: string, title: string, author: string)
    ensures UpdateBook(m, isbn, Forwarded(title), Forwarded(author)) == UpdateBook(m, isbn, Some(title), Some(author))
    ensures title == "" && author == "" && HasIsbn(m.books, isbn) ==>
              UpdateBook(m, isbn, Forwarded(title), Forwarded(author)).value.1
              == m.books[IndexOfIsbn(m.books, isbn).value]
  {
  }
}

=== FILE: common.dfy ===
/**
 * Shared vocabulary of the library catalogue model: optional values, results
 * carrying the catalogue's error kinds, the dictionary records that every
 * entity is serialised to, and three generic sequence scans (first match,
 * order-preserving filter, all-or-nothing conversion) that the registries use.
 */
module Common {

  /** A value that may be absent; stands for Python's `None`. */
  datatype Option<+T> = None | Some(value: T)

  /**
   * The failures the catalogue reports. The source raises `ValueError` with a
   * message for each of the first six, and lets a `KeyError`, `TypeError` or
   * `ValueError` escape while loading a record that is not shaped as expected.
   */
  datatype Error =
    | MissingField     // a required title, author, ISBN or name is empty
    | DuplicateIsbn    // a book with that ISBN already exists
    | BookNotFound     // no book has that ISBN
    | UserNotFound     // no user has that id
    | NotAvailable     // the book is already checked out
    | NotCheckedOut    // no active checkout for that ISBN, or already returned
    | Malformed        // a stored record lacks a key or holds the wrong kind of value
    | BadJson          // a storage file's text is not a JSON array of objects

  datatype Result<+T> = Success(value: T) | Failure(error: Error) {
    predicate IsFailure() {
      Failure?
    }

    function PropagateFailure<U>(): Result<U>
      requires Failure?
    {
      Failure(error)
    }

    function Extract(): T
      requires Success?
    {
      value
    }
  }

  /**
   * A JSON value as the catalogue writes it. `Stamp` is an ISO-8601 date-time
   * string, abstracted to the instant (in seconds) that it denotes.
   */
  datatype Value = Null | Bool(b: bool) | Str(s: string) | Stamp(t: int)

  /** A JSON object: what `to_dict` returns and `from_dict` consumes. */
  type Record = map<string, Value>

  /** The index of the first element satisfying `p`, as Python's `next(...)` over a generator finds it. */
  function FirstIndex<T>(s: seq<T>, p: T -> bool): (r: Option<nat>)
    ensures r.Some? ==> r.value < |s| && p(s[r.value])
    ensures r.Some? ==> forall j :: 0 <= j < r.value ==> !p(s[j])
    ensures r.None? <==> forall j :: 0 <= j < |s| ==> !p(s[j])
    decreases |s|
  {
    if |s| == 0 then None
    else if p(s[0]) then Some(0)
    else
      match FirstIndex(s[1..], p)
      case None => None
      case Some(i) => Some(i + 1)
  }

  /** The elements of `s` satisfying `p`, in their original order: a list comprehension with an `if`. */
  function Filter<T>(s: seq<T>, p: T -> bool): (r: seq<T>)
    ensures |r| <= |s|
    ensures forall i :: 0 <= i < |r| ==> p(r[i]) && r[i] in s
    ensures forall i :: 0 <= i < |s| && p(s[i]) ==> s[i] in r
    decreases |s|
  {
    if |s| == 0 then []
    else (if p(s[0]) then [s[0]] else []) + Filter(s[1..], p)
  }

  /** Filtering a concatenation filters each part and keeps the parts in order. */
  lemma {:induction false} FilterAppend<T>(a: seq<T>, b: seq<T>, p: T -> bool)
    ensures Filter(a + b, p) == Filter(a, p) + Filter(b, p)
    decreases |a|
  {
    if |a| == 0 {
      assert a + b == b;
    } else {
      assert (a + b)[1..] == a[1..] + b;
      FilterAppend(a[1..], b, p);
    }
  }

  /** Filtering keeps everything exactly when every element passes. */
  lemma {:induction false} FilterAll<T>(s: seq<T>, p: T -> bool)
    requires forall i :: 0 <= i < |s| ==> p(s[i])
    ensures Filter(s, p) == s
    decreases |s|
  {
    if |s| > 0 {
      FilterAll(s[1..], p);
    }
  }

  /**
   * Converts every record with `f`, failing as soon as one conversion fails:
   * the list comprehension `[f(d) for d in data]` whose element constructor may raise.
   */
  function ParseAll<T>(data: seq<Record>, f: Record -> Result<T>): (r: Result<seq<T>>)
    ensures r.Success? ==> |r.value| == |data|
    ensures r.Success? ==> forall i :: 0 <= i < |data| ==> f(data[i]) == Success(r.value[i])
    ensures r.Failure? <==> exists i :: 0 <= i < |data| && f(data[i]).Failure?
    decreases |data|
  {
    if |data| == 0 then Success([])
    else
      match f(data[0])
      case Failure(e) => Failure(e)
      case Success(x) =>
        match ParseAll(data[1..], f)
        case Failure(e) => Failure(e)
        case Success(xs) => Success([x] + xs)
  }

  /** The concatenation of `f(x)` over the elements of `s`, in order: a comprehension that yields zero or one item per element. */
  function Collect<T, U>(s: seq<T>, f: T -> seq<U>): seq<U>
    decreases |s|
  {
    if |s| == 0 then [] else f(s[0]) + Collect(s[1..], f)
  }

  /** Collecting over a concatenation collects over each part and keeps the parts in order. */
  lemma {:induction false} CollectAppend<T, U>(a: seq<T>, b: seq<T>, f: T -> seq<U>)
    ensures Collect(a + b, f) == Collect(a, f) + Collect(b, f)
    decreases |a|
  {
    if |a| == 0 {
      assert a + b == b;
    } else {
      assert (a + b)[1..] == a[1..] + b;
      CollectAppend(a[1..], b, f);
    }
  }

  /** `[f(x) for x in s]`: one result per element, position by position. */
  function Map<T, U>(s: seq<T>, f: T -> U): (r: seq<U>)
    ensures |r| == |s|
    ensures forall i :: 0 <= i < |s| ==> r[i] == f(s[i])
  {
    seq(|s|, i requires 0 <= i < |s| => f(s[i]))
  }

  /** `s` without its element at index `i`: Python's `list.remove` once the element is located. */
  function RemoveAt<T>(s: seq<T>, i: nat): (r: seq<T>)
    requires i < |s|
    ensures |r| == |s| - 1
    ensures forall j :: 0 <= j < i ==> r[j] == s[j]
    ensures forall j :: i <= j < |r| ==> r[j] == s[j + 1]
  {
    s[..i] + s[i + 1..]
  }
}

=== FILE: storage.dfy ===
/**
 * The persistence gateway (library/storage.py). A store either keeps the last
 * saved list in memory or stands for a JSON file. File text found on disk is
 * kept raw and handed to a JSON parser supplied by the caller; text the store
 * wrote itself is kept as the records it encodes.
 */
module Persistence {
  import opened Common
  import opened Strings

  /** What a storage file holds: text found on disk, or the JSON dump of records saved through this store. */
  datatype Text = Raw(text: string) | Written(records: seq<Record>)

  datatype Storage = Memory(saved: seq<Record>) | File(content: Option<Text>)

  /** The path that selects in-memory mode. */
  const MemoryPath: string := ":memory:"

  /**
   * A JSON parser for a file's text: `None` when the text is not a JSON array
   * of objects whose values this model can represent (see `Value`).
   */
  type Parser = string -> Option<seq<Record>>

  /** `Storage(file_path)`; `onDisk` is the file's text if a file exists at that path. */
  function Open(path: string, onDisk: Option<string>): (s: Storage)
    ensures path == MemoryPath ==> s.Memory? && forall parse :: Load(s, parse) == Success([])
    ensures path != MemoryPath ==> s.File?
    ensures path != MemoryPath && onDisk.None? ==> forall parse :: Load(s, parse) == Success([])
    ensures path != MemoryPath && onDisk.Some? ==> s.content == Some(Raw(onDisk.value))
  {
    if path == MemoryPath then Memory([])
    else
      match onDisk
      case None => File(None)
      case Some(t) => File(Some(Raw(t)))
  }

  /** `save_data`: the whole list replaces whatever was stored before. */
  function Save(s: Storage, data: seq<Record>): (r: Storage)
    ensures r.Memory? == s.Memory?
    ensures forall parse :: Load(r, parse) == Success(data)
  {
    if s.Memory? then Memory(data) else File(Some(Written(data)))
  }

  /** `load_data`: a missing file, or one holding only whitespace, reads as the empty list. */
  function Load(s: Storage, parse: Parser): (r: Result<seq<Record>>)
    ensures s.Memory? ==> r == Success(s.saved)
    ensures s.File? && s.content.None? ==> r == Success([])
    ensures s.File? && s.content.Some? && s.content.value.Written? ==> r == Success(s.content.value.records)
    ensures r.Failure? ==> r.error == BadJson
    ensures s.File? && s.content.Some? && s.content.value.Raw?
            && (forall i :: 0 <= i < |s.content.value.text| ==> IsSpace(s.content.value.text[i]))
            ==> r == Success([])
    ensures s.File? && s.content.Some? && s.content.value.Raw?
            && (exists i :: 0 <= i < |s.content.value.text| && !IsSpace(s.content.value.text[i]))
            ==> r == (match parse(Strip(s.content.value.text))
                      case None => Failure(BadJson)
                      case Some(d) => Success(d))
  {
    match s
    case Memory(saved) => Success(saved)
    case File(None) => Success([])
    case File(Some(Written(records))) => Success(records)
    case File(Some(Raw(text))) =>
      StripEmptyIffBlank(text);
      var content := Strip(text);
      if content == "" then Success([])
      else
        match parse(content)
        case None => Failure(BadJson)
        case Some(d) => Success(d)
  }

  /** A second save forgets the first entirely. */
  lemma SaveOverwrites(s: Storage, a: seq<Record>, b: seq<Record>)
    ensures Save(Save(s, a), b) == Save(s, b)
  {
  }
}

=== FILE: strings.dfy ===
/**
 * Character classes, case folding, substring search, whitespace stripping
 * and the decimal form of natural numbers. Case folding and digits cover
 * ASCII; whitespace is Python's full set.
 */
module Strings {
  import opened Common

  predicate IsDigit(c: char) {
    '0' <= c <= '9'
  }

  predicate IsAsciiLetter(c: char) {
    ('A' <= c <= 'Z') || ('a' <= c <= 'z')
  }

  /**
   * The characters Python's `str.isspace`, `str.strip` and the regex class
   * `\s` treat as whitespace: the ASCII controls 9-13 and 28-31, the space,
   * and the Unicode separators U+0085, U+00A0, U+1680, U+2000-U+200A,
   * U+2028, U+2029, U+202F, U+205F and U+3000.
   */
  predicate IsSpace(c: char) {
    var n := c as int;
    || n == 0x20 || 0x09 <= n <= 0x0D || 0x1C <= n <= 0x1F
    || n == 0x85 || n == 0xA0 || n == 0x1680
    || 0x2000 <= n <= 0x200A || n == 0x2028 || n == 0x2029
    || n == 0x202F || n == 0x205F || n == 0x3000
  }

  /** ASCII lower-casing of one character. */
  function LowerChar(c: char): (r: char)
    ensures 'A' <= c <= 'Z' ==> r as int == c as int + 32
    ensures !('A' <= c <= 'Z') ==> r == c
    ensures !('A' <= r <= 'Z')
  {
    if 'A' <= c <= 'Z' then (c as int + 32) as char else c
  }

  /** `s.lower()` for ASCII text. */
  function Lower(s: string): (r: string)
    ensures |r| == |s|
    ensures forall i :: 0 <= i < |s| ==> r[i] == LowerChar(s[i])
  {
    seq(|s|, i requires 0 <= i < |s| => LowerChar(s[i]))
  }

  /** Lower-casing twice changes nothing more than lower-casing once. */
  lemma LowerIdempotent(s: string)
    ensures Lower(Lower(s)) == Lower(s)
  {
    assert forall i :: 0 <= i < |s| ==> LowerChar(LowerChar(s[i])) == LowerChar(s[i]);
  }

  /** `needle in hay` for strings: a scan that tries every starting position. */
  function Contains(hay: string, needle: string): bool
    decreases |hay|
  {
    needle <= hay || (|hay| > 0 && Contains(hay[1..], needle))
  }

  /** Reference meaning of substring containment: `needle` sits at some offset of `hay`. */
  ghost predicate OccursIn(needle: string, hay: string) {
    exists k :: OccursAt(needle, hay, k)
  }

  ghost predicate OccursAt(needle: string, hay: string, k: int) {
    0 <= k && k + |needle| <= |hay| && hay[k..k + |needle|] == needle
  }

  /** An occurrence one place further into `hay` is an occurrence in `hay[1..]`. */
  lemma OccursShift(needle: string, hay: string, k: nat)
    requires |hay| > 0
    ensures OccursAt(needle, hay, k + 1) <==> OccursAt(needle, hay[1..], k)
  {
    if k + 1 + |needle| <= |hay| {
      assert hay[k + 1..k + 1 + |needle|] == hay[1..][k..k + |needle|];
    }
  }

  lemma {:induction false} ContainsIffOccurs(hay: string, needle: string)
    ensures Contains(hay, needle) <==> OccursIn(needle, hay)
    decreases |hay|
  {
    if needle <= hay {
      assert OccursAt(needle, hay, 0);
    } else if |hay| == 0 {
      assert !OccursIn(needle, hay);
    } else {
      ContainsIffOccurs(hay[1..], needle);
      if OccursIn(needle, hay) {
        var k :| OccursAt(needle, hay, k);
        assert k > 0;
        OccursShift(needle, hay, k - 1);
      }
      if OccursIn(needle, hay[1..]) {
        var k :| OccursAt(needle, hay[1..], k);
        OccursShift(needle, hay, k);
      }
    }
  }

  /** The empty string is a substring of everything, as Python's `"" in s` is true. */
  lemma EmptyIsContained(hay: string)
    ensures Contains(hay, "")
  {
  }

  /** `s` with leading whitespace removed. */
  function TrimStart(s: string): (r: string)
    ensures |r| <= |s| && r == s[|s| - |r|..]
    ensures |r| > 0 ==> !IsSpace(r[0])
    ensures forall i :: 0 <= i < |s| - |r| ==> IsSpace(s[i])
    decreases |s|
  {
    if |s| > 0 && IsSpace(s[0]) then TrimStart(s[1..]) else s
  }

  /** `s` with trailing whitespace removed. */
  function TrimEnd(s: string): (r: string)
    ensures |r| <= |s| && r == s[..|r|]
    ensures |r| > 0 ==> !IsSpace(r[|r| - 1])
    ensures forall i :: |r| <= i < |s| ==> IsSpace(s[i])
    decreases |s|
  {
    if |s| > 0 && IsSpace(s[|s| - 1]) then TrimEnd(s[..|s| - 1]) else s
  }

  /**
   * Text of the form `<prefix> <word>)` with no space inside the word splits
   * there in one way only: the word is the run after the last space.
   */
  lemma {:induction false} LastWordUnique(p1: string, w1: string, p2: string, w2: string)
    requires forall i :: 0 <= i < |w1| ==> w1[i] != ' '
    requires forall i :: 0 <= i < |w2| ==> w2[i] != ' '
    requires p1 + " " + w1 + ")" == p2 + " " + w2 + ")"
    ensures p1 == p2 && w1 == w2
  {
    var s := p1 + " " + w1 + ")";
    var t := p2 + " " + w2 + ")";
    assert s[|p1|] == ' ' && t[|p2|] == ' ';
    assert forall j :: |p1| < j < |s| ==> s[j] != ' ' by {
      forall j | |p1| < j < |s| ensures s[j] != ' ' {
        if j < |s| - 1 { assert s[j] == w1[j - |p1| - 1]; }
      }
    }
    assert forall j :: |p2| < j < |t| ==> t[j] != ' ' by {
      forall j | |p2| < j < |t| ensures t[j] != ' ' {
        if j < |t| - 1 { assert t[j] == w2[j - |p2| - 1]; }
      }
    }
    assert |p1| == |p2|;
    assert p1 == s[..|p1|] && p2 == t[..|p2|];
    assert w1 == s[|p1| + 1..|s| - 1] && w2 == t[|p2| + 1..|t| - 1];
  }

  /** `s.strip()`: whitespace removed from both ends. */
  function Strip(s: string): string {
    TrimEnd(TrimStart(s))
  }

  /**
   * Stripping leaves nothing exactly when the text is all whitespace; with
   * `IsSpace` as Python's set, text of no-break spaces (U+00A0), line
   * separators (U+2028) or U+0085 alone strips to "".
   */
  lemma StripEmptyIffBlank(s: string)
    ensures Strip(s) == "" <==> forall i :: 0 <= i < |s| ==> IsSpace(s[i])
  {
    var t := TrimStart(s);
    if Strip(s) == "" {
      assert |t| == 0;
    } else {
      var u := Strip(s);
      assert !IsSpace(u[0]);
      assert u[0] == t[0] == s[|s| - |t|];
    }
  }

  function DigitChar(d: nat): (c: char)
    requires d < 10
    ensures IsDigit(c)
  {
    ('0' as int + d) as char
  }

  function DigitValue(c: char): (d: nat)
    requires IsDigit(c)
    ensures d < 10 && DigitChar(d) == c
  {
    c as int - '0' as int
  }

  predicate AllDigits(s: string) {
    forall i :: 0 <= i < |s| ==> IsDigit(s[i])
  }

  /** `str(n)` for a natural number: its decimal digits, most significant first. */
  function NatToString(n: nat): (r: string)
    ensures |r| >= 1 && AllDigits(r)
    ensures (r[0] == '0') <==> n == 0
    decreases n
  {
    if n < 10 then [DigitChar(n)] else NatToString(n / 10) + [DigitChar(n % 10)]
  }

  /** The number a string of decimal digits denotes. */
  function DigitsValue(s: string): nat
    requires AllDigits(s)
    decreases |s|
  {
    if |s| == 0 then 0 else 10 * DigitsValue(s[..|s| - 1]) + DigitValue(s[|s| - 1])
  }

  /** A decimal numeral as `str` produces it: digits only, and no leading zero unless it is "0". */
  predicate IsNumeral(s: string) {
    |s| >= 1 && AllDigits(s) && (s[0] == '0' ==> |s| == 1)
  }

  /** `int(s)` restricted to the numerals `str` produces; `None` for anything else. */
  function ParseNat(s: string): Option<nat> {
    if IsNumeral(s) then Some(DigitsValue(s)) else None
  }

  lemma {:induction false} DigitsOfNatToString(n: nat)
    ensures DigitsValue(NatToString(n)) == n
    decreases n
  {
    if n >= 10 {
      var s := NatToString(n);
      assert s[..|s| - 1] == NatToString(n / 10);
      DigitsOfNatToString(n / 10);
    }
  }

  /** Reading back the decimal form of `n` gives `n`. */
  lemma ParseNatToString(n: nat)
    ensures ParseNat(NatToString(n)) == Some(n)
  {
    DigitsOfNatToString(n);
  }

  lemma {:induction false} ZeroValueIsAllZeros(s: string)
    requires AllDigits(s) && DigitsValue(s) == 0
    ensures forall i :: 0 <= i < |s| ==> s[i] == '0'
    decreases |s|
  {
    if |s| > 0 {
      var p := s[..|s| - 1];
      ZeroValueIsAllZeros(p);
      forall i | 0 <= i < |s| ensures s[i] == '0' {
        if i < |s| - 1 {
          assert s[i] == p[i];
        }
      }
    }
  }

  /** A numeral is the decimal form of the number it denotes: `str(int(s)) == s`. */
  lemma {:induction false} NatToStringOfParse(s: string)
    requires ParseNat(s).Some?
    ensures NatToString(ParseNat(s).value) == s
    decreases |s|
  {
    var v := DigitsValue(s);
    if |s| > 1 {
      var p := s[..|s| - 1];
      assert p[0] == s[0];
      assert IsNumeral(p);
      if DigitsValue(p) == 0 {
        ZeroValueIsAllZeros(p);
        assert false;
      }
      NatToStringOfParse(p);
      assert v / 10 == DigitsValue(p);
      assert v % 10 == DigitValue(s[|s| - 1]);
      assert s == p + [s[|s| - 1]];
    } else {
      assert s[..0] == [];
      assert DigitsValue(s) == DigitValue(s[0]);
      assert NatToString(v) == [DigitChar(v)];
      assert s == [s[0]];
    }
  }

  /** Distinct numbers have distinct decimal forms. */
  lemma NatToStringInjective(m: nat, n: nat)
    ensures NatToString(m) == NatToString(n) <==> m == n
  {
    if NatToString(m) == NatToString(n) {
      ParseNatToString(m);
      ParseNatToString(n);
    }
  }
}

=== FILE: user_manager.dfy ===
/**
 * The user registry (library/managers/user_manager.py): users in insertion
 * order, ids drawn from a counter that starts one past the largest stored id
 * and only ever grows during a session, and write-through to storage after
 * every successful mutation. A failure returns no new registry.
 */
module UserManagement {
  import opened Common
  import opened Strings
  import opened Users
  import opened Persistence

  datatype UserManager = UserManager(users: seq<User>, nextId: nat, store: Storage)

  /** A user whose `user_id` string is `key`. */
  predicate HasId(users: seq<User>, key: string) {
    exists i :: 0 <= i < |users| && IdString(users[i]) == key
  }

  /** The registry invariant: ids are unique and all lie below the counter. */
  ghost predicate Valid(m: UserManager) {
    && (forall i :: 0 <= i < |m.users| ==> m.users[i].id < m.nextId)
    && (forall i, j :: 0 <= i < |m.users| && 0 <= j < |m.users| && m.users[i].id == m.users[j].id ==> i == j)
  }

  /** The serialised form of the registry, `[user.to_dict() for user in users]`. */
  function UserRecords(users: seq<User>): seq<Record> {
    Map(users, ToDict)
  }

  /** Storage holds, for any parser, exactly the serialisation of `users`. */
  ghost predicate WrittenThrough(s: Storage, users: seq<User>) {
    forall parse :: Load(s, parse) == Success(UserRecords(users))
  }

  /** `_get_next_id`: 1 for no users, otherwise one more than the largest id. */
  function NextId(users: seq<User>): (r: nat)
    ensures r >= 1
    ensures forall i :: 0 <= i < |users| ==> users[i].id < r
    ensures |users| == 0 ==> r == 1
    ensures |users| > 0 ==> exists i :: 0 <= i < |users| && users[i].id + 1 == r
    decreases |users|
  {
    if |users| == 0 then 1
    else
      var rest := NextId(users[1..]);
      if users[0].id + 1 >= rest then users[0].id + 1 else rest
  }

  /** `__init__`: load the users, then seed the counter from them. */
  function LoadUsers(store: Storage, parse: Parser): (r: Result<UserManager>)
    ensures r.Success? ==> r.value.store == store && r.value.nextId == NextId(r.value.users)
    ensures r.Success? ==> Load(store, parse).Success?
                           && |r.value.users| == |Load(store, parse).value|
                           && forall i :: 0 <= i < |r.value.users| ==>
                                FromDict(Load(store, parse).value[i]) == Success(r.value.users[i])
    ensures Load(store, parse).Failure? ==> r.Failure?
    ensures r.Success? <==> Load(store, parse).Success?
                            && forall i :: 0 <= i < |Load(store, parse).value| ==> WellFormed(Load(store, parse).value[i])
  {
    var data :- Load(store, parse);
    var users :- ParseAll(data, FromDict);
    Success(UserManager(users, NextId(users), store))
  }

  /** `save_users`. */
  function SaveUsers(m: UserManager): (r: UserManager)
    ensures r.users == m.users && r.nextId == m.nextId
    ensures WrittenThrough(r.store, r.users)
  {
    m.(store := Save(m.store, UserRecords(m.users)))
  }

  /** Position of the first user whose `user_id` string is `key`. */
  function IndexOfId(users: seq<User>, key: string): (r: Option<nat>)
    ensures r.Some? ==> r.value < |users| && IdString(users[r.value]) == key
    ensures r.Some? ==> forall j :: 0 <= j < r.value ==> IdString(users[j]) != key
    ensures r.None? <==> !HasId(users, key)
  {
    FirstIndex(users, (u: User) => IdString(u) == key)
  }

  /** `get_user_by_id`: the first user with that id, or none. */
  function GetUserById(users: seq<User>, key: string): (r: Option<User>)
    ensures r.None? <==> !HasId(users, key)
    ensures r.Some? ==> IdString(r.value) == key && r.value in users
    ensures r.Some? ==> exists i :: 0 <= i < |users| && users[i] == r.value
                                 && forall j :: 0 <= j < i ==> IdString(users[j]) != key
  {
    match IndexOfId(users, key)
    case None => None
    case Some(i) => Some(users[i])
  }

  /** Looking a user up by the string form of its id finds a user with that very number. */
  lemma GetUserByNumber(users: seq<User>, id: nat)
    ensures GetUserById(users, NatToString(id)).Some? <==> exists i :: 0 <= i < |users| && users[i].id == id
    ensures GetUserById(users, NatToString(id)).Some? ==> GetUserById(users, NatToString(id)).value.id == id
  {
    forall i | 0 <= i < |users| ensures IdString(users[i]) == NatToString(id) <==> users[i].id == id {
      NatToStringInjective(users[i].id, id);
    }
  }

  /** `add_user`: the new user gets the counter's value as id and the counter moves on by one. */
  function AddUser(m: UserManager, name: string): (r: Result<(UserManager, User)>)
    ensures r.Failure? <==> name == ""
    ensures r.Failure? ==> r.error == MissingField
    ensures r.Success? ==> var (m', u) := r.value;
              && u.name == name && IdString(u) == NatToString(m.nextId)
              && m'.users == m.users + [u]
              && m'.nextId == m.nextId + 1
              && WrittenThrough(m'.store, m'.users)
    ensures r.Success? && Valid(m) ==> Valid(r.value.0)
    ensures r.Success? && Valid(m) ==> forall i :: 0 <= i < |m.users| ==> m.users[i].id < r.value.1.id
  {
    if name == "" then Failure(MissingField)
    else
      var u := User(name, m.nextId);
      Success((SaveUsers(m.(users := m.users + [u], nextId := m.nextId + 1)), u))
  }

  /** `update_user`: the name of the first user with that id is replaced, even by an empty one. */
  function UpdateUser(m: UserManager, key: string, name: string): (r: Result<(UserManager, User)>)
    ensures r.Failure? <==> !HasId(m.users, key)
    ensures r.Failure? ==> r.error == UserNotFound
    ensures r.Success? ==> var (m', u) := r.value;
              var k := IndexOfId(m.users, key).value;
              && |m'.users| == |m.users|
              && m'.users[k] == u && u.name == name && u.id == m.users[k].id
              && (forall j :: 0 <= j < |m.users| && j != k ==> m'.users[j] == m.users[j])
              && m'.nextId == m.nextId
              && WrittenThrough(m'.store, m'.users)
    ensures r.Success? && Valid(m) ==> Valid(r.value.0)
  {
    match IndexOfId(m.users, key)
    case None => Failure(UserNotFound)
    case Some(k) =>
      var u := m.users[k].(name := name);
      Success((SaveUsers(m.(users := m.users[k := u])), u))
  }

  /** `delete_user`: the first user with that id is removed; the counter is left alone. */
  function DeleteUser(m: UserManager, key: string): (r: Result<UserManager>)
    ensures r.Failure? <==> !HasId(m.users, key)
    ensures r.Failure? ==> r.error == UserNotFound
    ensures r.Success? ==> var k := IndexOfId(m.users, key).value;
              && r.value.users == m.users[..k] + m.users[k + 1..]
              && r.value.nextId == m.nextId
              && WrittenThrough(r.value.store, r.value.users)
    ensures r.Success? && Valid(m) ==> Valid(r.value) && !HasId(r.value.users, key)
  {
    match IndexOfId(m.users, key)
    case None => Failure(UserNotFound)
    case Some(k) => Success(SaveUsers(m.(users := RemoveAt(m.users, k))))
  }

  /** `search_users`: the users whose lower-cased name contains the lower-cased query, in order. */
  function SearchUsers(m: UserManager, query: string): (r: seq<User>)
    ensures forall u :: u in r <==> (u in m.users && OccursIn(Lower(query), Lower(u.name)))
    ensures |r| <= |m.users|
  {
    var q := Lower(query);
    var r := Filter(m.users, (u: User) => Contains(Lower(u.name), q));
    forall u: User ensures Contains(Lower(u.name), q) <==> OccursIn(q, Lower(u.name)) {
      ContainsIffOccurs(Lower(u.name), q);
    }
    r
  }

  /** The search result splits along any split of the registry: matches keep registry order. */
  lemma SearchUsersPreservesOrder(a: seq<User>, b: seq<User>, nextId: nat, store: Storage, query: string)
    ensures SearchUsers(UserManager(a + b, nextId, store), query)
         == SearchUsers(UserManager(a, nextId, store), query) + SearchUsers(UserManager(b, nextId, store), query)
  {
    var q := Lower(query);
    FilterAppend(a, b, (u: User) => Contains(Lower(u.name), q));
  }

  /**
   * Ids handed out within a session strictly increase, whatever deletions
   * happen in between: an add, a delete of any user, then another add.
   */
  lemma {:induction false} IdsIncreaseAcrossDelete(m: UserManager, first: string, key: string, second: string)
    requires first != "" && second != ""
    requires HasId(AddUser(m, first).value.0.users, key)
    ensures AddUser(m, first).value.1.id
          < AddUser(DeleteUser(AddUser(m, first).value.0, key).value, second).value.1.id
  {
    var m1 := AddUser(m, first).value.0;
    var m2 := DeleteUser(m1, key).value;
    assert m2.nextId == m1.nextId == m.nextId + 1;
  }

  /** Re-running `_load_users` on the store just saved gives back the same users, with the counter reseeded from them. */
  lemma ReloadAfterSave(m: UserManager, parse: Parser)
    ensures LoadUsers(SaveUsers(m).store, parse).Success?
    ensures LoadUsers(SaveUsers(m).store, parse).value.users == m.users
    ensures LoadUsers(SaveUsers(m).store, parse).value.nextId == NextId(m.users)
  {
    var s := SaveUsers(m).store;
    assert Load(s, parse) == Success(UserRecords(m.users));
    var r := LoadUsers(s, parse);
    assert forall i :: 0 <= i < |m.users| ==> FromDict(UserRecords(m.users)[i]) == Success(m.users[i]);
    assert r.Success?;
    assert forall i :: 0 <= i < |m.users| ==> r.value.users[i] == m.users[i];
  }

  /** Deleting the user just added restores the previous list, though not the previous counter. */
  lemma DeleteUndoesAdd(m: UserManager, name: string)
    requires Valid(m)
    requires AddUser(m, name).Success?
    ensures var (m1, u) := AddUser(m, name).value;
            && DeleteUser(m1, IdString(u)).Success?
            && DeleteUser(m1, IdString(u)).value.users == m.users
            && DeleteUser(m1, IdString(u)).value.nextId == m.nextId + 1
  {
    var (m1, u) := AddUser(m, name).value;
    forall i | 0 <= i < |m.users| ensures IdString(m1.users[i]) != IdString(u) {
      NatToStringInjective(m.users[i].id, u.id);
    }
    assert IdString(m1.users[|m.users|]) == IdString(u);
    assert IndexOfId(m1.users, IdString(u)) == Some(|m.users|);
    assert m1.users[..|m.users|] == m.users;
  }

  /**
   * The counter is not persisted: re-running `_load_users` on the same store
   * after the newest user was added and deleted seeds the counter with that
   * user's id again. For a file store this is what a later session over the
   * same file sees, and it hands the id out a second time; an in-memory
   * store opened anew starts empty instead.
   */
  lemma ReloadReusesDeletedId(m: UserManager, name: string, parse: Parser)
    requires Valid(m) && m.nextId == NextId(m.users)
    requires AddUser(m, name).Success?
    ensures var (m1, u) := AddUser(m, name).value;
            && DeleteUser(m1, IdString(u)).Success?
            && LoadUsers(DeleteUser(m1, IdString(u)).value.store, parse).Success?
            && LoadUsers(DeleteUser(m1, IdString(u)).value.store, parse).value.nextId == u.id
  {
    var (m1, u) := AddUser(m, name).value;
    DeleteUndoesAdd(m, name);
    var m2 := DeleteUser(m1, IdString(u)).value;
    ReloadAfterSave(m2, parse);
    assert SaveUsers(m2).store == m2.store;
  }
}

=== FILE: users.dfy ===
/**
 * A registered library user (library/user.py). The source keeps the id as the
 * string `str(n)` of a counter value; the model keeps the number and renders
 * it with `NatToString` wherever the source uses the string.
 */
module Users {
  import opened Common
  import opened Strings

  datatype User = User(name: string, id: nat)

  /** The `user_id` string the source stores. */
  function IdString(u: User): (s: string)
    ensures ParseNat(s) == Some(u.id)
  {
    ParseNatToString(u.id);
    NatToString(u.id)
  }

  /** `__str__`: "<name> (ID: <user_id>)". */
  function Label(u: User): (s: string)
    ensures |s| == |u.name| + |IdString(u)| + 7
    ensures u.name <= s
    ensures s[|u.name|..|u.name| + 6] == " (ID: "
    ensures s[|u.name| + 6..|s| - 1] == IdString(u) && s[|s| - 1] == ')'
  {
    u.name + " (ID: " + IdString(u) + ")"
  }

  /** The printed form identifies the user: an id is digits only, so the name and the id can be read back from it. */
  lemma LabelInjective(u1: User, u2: User)
    ensures Label(u1) == Label(u2) <==> u1 == u2
  {
    if Label(u1) == Label(u2) {
      var a, b := IdString(u1), IdString(u2);
      assert Label(u1) == (u1.name + " (ID:") + " " + a + ")";
      assert Label(u2) == (u2.name + " (ID:") + " " + b + ")";
      LastWordUnique(u1.name + " (ID:", a, u2.name + " (ID:", b);
      assert u1.name == (u1.name + " (ID:")[..|u1.name|];
      NatToStringInjective(u1.id, u2.id);
    }
  }

  /** `to_dict`: exactly the keys name and user_id, and `FromDict` reads the same user back. */
  function ToDict(u: User): (d: Record)
    ensures d.Keys == {"name", "user_id"}
    ensures FromDict(d) == Success(u)
  {
    map["name" := Str(u.name), "user_id" := Str(IdString(u))]
  }

  /** The record holds a string name and a user_id that is a decimal numeral. */
  predicate WellFormed(d: Record) {
    && "name" in d && d["name"].Str?
    && "user_id" in d && d["user_id"].Str? && ParseNat(d["user_id"].s).Some?
  }

  /** `from_dict`: name and id copied from the record unchanged. */
  function FromDict(d: Record): (r: Result<User>)
    ensures r.Failure? <==> !WellFormed(d)
    ensures r.Failure? ==> r.error == Malformed
    ensures r.Success? ==> r.value.name == d["name"].s && IdString(r.value) == d["user_id"].s
  {
    if !WellFormed(d) then Failure(Malformed)
    else
      var u := User(d["name"].s, ParseNat(d["user_id"].s).value);
      NatToStringOfParse(d["user_id"].s);
      Success(u)
  }
}
